=== FILE: README.md ===
# Chart game: round lifecycle and ledger

A Dafny model of the server core of a Telegram mini-app betting game.
Rounds are 19-second windows of wall-clock time. Players bet "long" or
"short" in the first 7 seconds of a round. The round's outcome is a
percentage in [-100, 200], drawn deterministically from a secret seed and
the round's start time. After the round ends, a bet of `stake` nano-TON
returns `floor(stake * (1 + m))`, where `m` is the outcome as a fraction,
negated for a short bet.

Every handler is a pure transition from a store, a request and the current
time to a new store and an answer (`Http.Step`). The Redis database is the
value `KeyValue.Store`:

- its string keys, one `Key` constructor per key family;
- the per-round meta hashes;
- the `round:history` and `game:history` lists.

Modules, in dependency order:

- `Js`: JavaScript numbers (`Num`: a finite real, NaN or an infinity), `Number()`, truthiness, `Math.round`, `toFixed`, and parsed JSON values.
- `Strings`: `toLowerCase`, `trim`, UTF-16 code units, decimal text.
- `Clock`: the round clock (`getRoundTimes` and the round-index helpers).
- `Oracle`: FNV-1a, mulberry32 and the outcome distribution `pickOutcomePctDeterministic`.
- `KeyValue`: the store, `get`/`set`/`del`, and the balance read every handler shares.
- `Http`: request, answer and error tags; the deployment configuration.
- `Game`: `getRoundMeta`, `pushHistoryIfFinished` and the step counts of the visible chart.
- `Bets`: api/bet_place.js and api/bet_cancel.js.
- `Settlement`: api/bet_settle.js.
- `Deposit`: api/deposit_credit.js.
- `Series`: api/series.js.
- `Views`: api/state.js and api/balance.js.
- `Ledger`: properties that span several handlers.

The handlers import several names that lib/game.js does not export
(it exports `redis`, `BET_MS`, `ROUND_MS`, `getRoundMeta`,
`pushHistoryIfFinished` and `generateVisibleSeries`). They are taken to be:

- `roundIdByNow(now)` is `floor(now / ROUND_MS)`.
- `roundStartAt(id)` is `id * ROUND_MS`.
- `roundEndAt(id)` is `roundStartAt(id) + ROUND_MS`.
- `PLAY_MS`, defined nowhere, is `ROUND_MS - BET_MS` = 12000.
- `MIN_Y` and `MAX_Y` are lib/game.js's unexported constants, -100 and 200.

These agree with lib/game.js's own `getRoundTimes`
(`Views.StateMatchesRoundTimes`). `pickOutcomePctForRound(rid)` is not
defined there either. It is a parameter `pick` of the series handler, and
`Series.AssumedPick` reads it as `pickOutcomePctDeterministic(roundStartAt(rid))`.

## Model

| member | source | states |
|---|---|---|
| Js.Add | api/bet_place.js:63-64 | JS `+` on numbers: finite exactly when both operands are, NaN propagates, otherwise the real sum |
| Js.Sub | api/bet_settle.js:73 | JS `-`: finite exactly when both operands are, and then the real difference; `returnNano - stakeNano` is not finite for a non-numeric stake |
| Js.Clamp | api/bet_settle.js:17-19 | `clamp(x, a, b)` lies in [a, b], is `x` inside the range and the nearer bound outside it |
| Js.Round | api/bet_place.js:20 | `Math.round` is the integer within half a unit, ties rounding up |
| Js.ToFixedWithin | lib/game.js:114 | rounding to `digits` decimals with `toFixed` keeps a value inside any integer range that held it |
| Js.ToFixedZeroIsWhole | api/series.js:42 | `Number(x.toFixed(0))` is a whole number |
| Js.NumberText | api/bet_place.js:70 | a number written with `String(n)` reads back with `Number()` as `n`, and parses as JSON exactly when finite |
| Js.JsonText | api/bet_place.js:80 | an object written with `JSON.stringify` parses back to the same fields, and its `Number()` is NaN |
| Strings.Lower | api/bet_place.js:32 | ASCII lower-casing, character by character; exact for the comparison with "long" and "short", since no other character lower-cases to one of their letters |
| Strings.Trim | api/balance.js:7 | `trim()` is the text with its leading and trailing white space removed: a piece of it with only white space before and after; empty exactly when the text is all white space, and otherwise neither starts nor ends with white space |
| Strings.CodeUnits | lib/game.js:21 | `charCodeAt` sees the code point itself below U+10000, and above it a high and a low surrogate that decode back to the code point |
| Strings.DecimalRoundTrip | lib/game.js:35 | the decimal text of `startAt` in the seed string reads back as `startAt`, so distinct rounds have distinct seed texts |
| Clock.CurrentRound | api/state.js:12-16 | `roundIdByNow(now) == id` exactly when `roundStartAt(id) <= now < roundEndAt(id)` |
| Clock.RoundsAbut | api/series.js:37 | round `id + 1` starts where round `id` ends, and `roundIdByNow` changes exactly at that instant |
| Clock.Phases | api/bet_place.js:42-49 | the betting window is the first BET_MS of the current round and the play phase the remaining PLAY_MS |
| Clock.GetRoundTimes | lib/game.js:92-98 | `getRoundTimes(now)`: the start is a multiple of ROUND_MS at or before `now`, betting closes BET_MS later, the next round starts ROUND_MS later and after `now`; it is the round `roundIdByNow` names |
| Clock.NextRoundStartsAtNextAt | lib/game.js:96 | the round `getRoundTimes` finds at `nextAt` starts at `nextAt` |
| Oracle.Xfnv1a | lib/game.js:18-25 | the hashing loop computes FNV-1a over the string's UTF-16 code units |
| Oracle.FnvFromConcat | lib/game.js:20-23 | hashing a concatenation continues from the hash of its first part |
| Oracle.FnvShortVectors | lib/game.js:18-25 | the hash matches the published FNV-1a 32-bit vectors for "" and "a" |
| Oracle.FnvFoobarVector | lib/game.js:18-25 | the hash matches the published FNV-1a 32-bit vector for "foobar" |
| Oracle.Next | lib/game.js:26-33 | one mulberry32 call advances the counter by 0x6D2B79F5 modulo 2^32 and draws a value in [0, 1) |
| Oracle.MulberryVectors | lib/game.js:26-33 | from state 0 the generator's first two words are those of the reference mulberry32, 0x4434B462 and 0x00159C37 |
| Oracle.Unsigned | lib/game.js:31 | `w >>> 0` is in [0, 2^32) |
| Oracle.Part | lib/game.js:39 | `u * d` for a draw `u` in [0, 1) lies in [0, d) |
| Oracle.Scale | lib/game.js:39 | a draw scaled to [min, max) lies in [min, max) |
| Oracle.Rand | lib/game.js:38-40 | `rand(rng, min, max)` lies in [min, max) and advances the generator one step |
| Oracle.SeedContinuesSecret | lib/game.js:34-37 | the round's seed is the secret's hash state continued over ":" and the start time |
| Oracle.OutcomeOf | lib/game.js:46-56 | the bucket of each first draw: below 30 a rise in [0, 50), below 40 in [50, 100), below 45 in [100, 150), below 48 in [150, 200), below 97 a fall in (-100, 0], else 0; always in [MIN_Y, MAX_Y] |
| Oracle.OutcomeFrom | lib/game.js:47-55 | the outcome of a seeded generator lies in [MIN_Y, MAX_Y] |
| Oracle.PickOutcomePct | lib/game.js:46-56 | `pickOutcomePctDeterministic(startAt)` lies in [-100, 200] |
| KeyValue.Get | lib/game.js:132 | `redis.get` answers a value exactly when the key is present |
| KeyValue.NumberOr0 | api/bet_place.js:55 | `Number(get(k) \|\| "0")` is 0 for a missing or empty value |
| KeyValue.Set | api/bet_place.js:70 | `redis.set` replaces one key and leaves the lists and hashes alone |
| KeyValue.Del | api/bet_cancel.js:58 | `redis.del` removes one key and every other key reads as before |
| KeyValue.SetBalanceReads | api/bet_cancel.js:52-55 | a balance written with `String(x)` reads back as `x`, and other users' balances are unchanged |
| KeyValue.Take | lib/game.js:136 | `ltrim(key, 0, n - 1)` keeps the first `n` entries, or all of them when there are fewer |
| Http.Arg | api/bet_place.js:29 | a field of `req.body \|\| {}` exists only when the body is an object |
| Http.Canonical | api/bet_place.js:13-16 | `canonicalFriendly` of a string is the configured parse; a number never parses |
| Game.HashNumber | lib/game.js:122-125 | `Number(meta[field])` of a missing field is NaN |
| Game.FreshFinalPct | lib/game.js:107-114 | the stored `finalPct` lies in [MIN_Y, MAX_Y] |
| Game.WriteMeta | lib/game.js:110-115 | `hset` of the four fields reads back as those numbers, sets a non-empty `startAt`, and keeps other fields |
| Game.GetRoundMeta | lib/game.js:100-127 | `getRoundMeta` writes only when `startAt` is missing or empty, then holds the round's times and a fresh outcome; otherwise it only reads; only that round's hash changes |
| Game.MetaWriteOnce | lib/game.js:105-118 | every call in the same round returns the same meta, and only the first call writes |
| Game.FreshMetaInRange | lib/game.js:107-125 | a freshly written meta has its outcome in range and `nextAt` after `now` |
| Game.PushHistoryIfFinished | lib/game.js:129-138 | before `nextAt`, or with the marker set, nothing changes; otherwise the entry goes to the head of a list trimmed to 12 and the marker is set |
| Game.PushOnce | lib/game.js:131-137 | a finished round enters "game:history" once: a second push changes nothing |
| Game.TotalSteps | lib/game.js:61 | the chart's step count is at least 30 and at least the round's length in ticks |
| Game.VisibleSteps | lib/game.js:62 | the visible steps lie in [1, totalSteps] and equal the elapsed ticks when those are in range |
| Game.SeriesTimes | lib/game.js:59-90 | the chart has one point per tick from `startAt`, the ticks in increasing time order, plus a final point at `nextAt` once the round is over; when the round is a whole number of at least 30 ticks (19000 ms is 95 ticks of 200 ms) the last tick already falls at `nextAt`, so that final point repeats its time |
| Bets.ToNano | api/bet_place.js:17-21 | `toNano` is defined exactly for positive finite amounts and is the amount in nano-TON rounded to the nearest unit |
| Bets.Side | api/bet_place.js:32-33 | a side is accepted exactly when it is a string, or a truthy value printed through its own text, whose lower-cased text is "long" or "short", and then as that text; every other text, and a missing, null, numeric or object side, is refused |
| Bets.PlaceVerdict | api/bet_place.js:27-49 | placement passes validation exactly when it is a POST and the side, amount (at least one nano-unit), address, round (the current one) and window (open) are all valid; each refusal, `method`, `no_address`, `bad_side`, `bad_amount`, `bad_address`, `bad_round` and `bets_closed`, is answered exactly when every earlier check passes and its own fails, in that order |
| Bets.BetRecord | api/bet_place.js:72-80 | the stored bet parses back with its amount and side |
| Bets.Place | api/bet_place.js:23-86 | a refused request leaves the store unchanged, and validation failures are answered first; after validation only `insufficient` can refuse |
| Bets.PlaceInsufficientIff | api/bet_place.js:63-66 | with validation passed, the answer is `insufficient` exactly when balance plus refunded stake is below the amount |
| Bets.PlaceConserves | api/bet_place.js:55-82 | a placement keeps balance plus live stake constant, leaves the balance non-negative, stores the record of the request's round, user, side, amount and time, reports `replaced` as "a bet was there", and changes no other key |
| Bets.PlaceOverUnparsable | api/bet_place.js:57-64 | an unparsable old bet counts as replaced but refunds nothing |
| Bets.CancelVerdict | api/bet_cancel.js:21-40 | cancellation passes validation exactly when it is a POST for a parsable address in the current round's open window; each refusal, `method`, `no_address`, `bad_address`, `bad_round` (round not a finite number), `not_current_round` and `bets_closed`, is answered exactly when every earlier check passes and its own fails, in that order |
| Bets.Cancel | api/bet_cancel.js:17-64 | refusals leave the store unchanged; after validation the answer is `no_bet` exactly when no bet is stored, and for a stored bet `bad_bet` exactly when its `amountNano` is not a finite number above 0; otherwise the refund is that amount and the bet is removed |
| Bets.CancelConserves | api/bet_cancel.js:46-58 | a cancellation raises the balance by exactly the stored stake and removes it, so balance plus stake is unchanged, and no other key changes |
| Settlement.ReturnNano | api/bet_settle.js:64-65 | the payout is 0 for a non-numeric stake or a negative `stake * (1 + m)`, and otherwise the floor of `stake * (1 + m)` |
| Settlement.PayoutBounds | api/bet_settle.js:56-65 | with the outcome clamped, a long bet returns at most 3x its stake and a short bet at most 2x; a flat round returns the stake |
| Settlement.SettleVerdict | api/bet_settle.js:25-35 | settlement passes validation exactly when it is a POST for a parsable address and a finite round; `method`, `no_address`, `bad_address` and `bad_round` are each answered exactly when every earlier check passes and its own fails, in that order |
| Settlement.SettleStep | api/bet_settle.js:21-86 | failures, `pending` and `already_settled` leave the store unchanged; after the round's end an unsettled bet whose record does not parse gets the handler's 500; a payout is for a stored bet, its outcome is the stored outcome clamped to [-100, 200], its side is whether the record's side is "long", and its return is `floor(stake * (1 + m))` of the record's `amountNano` and that side's signed outcome |
| Settlement.SettleAsWritten | api/bet_settle.js:21-86 | the handler as written leaves the store unchanged on every failure, and pays the clamped stored outcome, the record's side and `floor(stake * (1 + m))` |
| Settlement.Settle | api/bet_settle.js:52-65 | the corrected handler pays only when a numeric outcome is stored for the round, and then the clamped outcome, the record's side and `floor(stake * (1 + m))` |
| Settlement.SettlePaysIff | api/bet_settle.js:49-65 | for an unsettled, parsable, non-null bet after the round's end, the bet is paid exactly when the outcome reads as a number (and, corrected, is stored) |
| Settlement.PendingBeforeEnd | api/bet_settle.js:37-39 | before the round's end the answer is `pending` whatever the store holds |
| Settlement.SettleOrderAfterEnd | api/bet_settle.js:41-47 | after the round's end, the answer is `no_bet` exactly when no bet is stored, and a stored bet with its settled marker is answered `already_settled` with the store unchanged, whatever the outcome |
| Settlement.SettleCredits | api/bet_settle.js:56-73 | a settlement credits exactly the payout of the clamped stored outcome, the bet's side and its stake, sets the settled marker, keeps the bet, reports the profit as payout minus stake, and changes no other key |
| Settlement.SettleOnce | api/bet_settle.js:45-47 | a paid bet is answered `already_settled` later and changes nothing, so it is paid once |
| Settlement.NonNumericOutcomePending | api/bet_settle.js:52-53 | a stored outcome that is not a finite number leaves the bet pending |
| Settlement.NullRecordFailsLate | api/bet_settle.js:49-58 | a bet record that parses to `null` fails with the handler's 500 exactly when a numeric outcome is read, since `bet.side` is read only after the outcome; otherwise it stays pending; the store is unchanged either way |
| Settlement.AbsentOutcomeSettlesAtZero | api/bet_settle.js:52-53 | as written, a bet whose round has no committed outcome is paid at 0% |
| Settlement.AbsentOutcomeStaysPending | api/bet_settle.js:52-53 | corrected, the same request is answered `pending` and changes nothing |
| Settlement.AbsentOutcomeExample | api/bet_settle.js:52-53 | a concrete bet that is paid 1000 at 0% as written and stays pending when corrected |
| Deposit.Credit | api/deposit_credit.js:16-49 | refusals and `already_credited` leave the store unchanged; `bad_amount` exactly for a non-positive or non-finite amount; the 500 `deposit_credit_error` exactly when the address does not parse; `already_credited` exactly when a truthy comment's marker is set; otherwise the deposit is credited `floor(amt * 1e9)` |
| Deposit.CreditAdds | api/deposit_credit.js:30-43 | a credit adds `floor(amt * 1e9)`, never negative, to the balance, sets the comment marker, and changes no other key |
| Deposit.CreditOnce | api/deposit_credit.js:30-37 | with a comment, a repeated deposit is credited once |
| Deposit.NoCommentCreditsAgain | api/deposit_credit.js:30-43 | without a comment, a repeated deposit is credited twice |
| Series.AssumedDrawInRange | api/series.js:23 | with the assumed oracle, the memoised outcome lies in [-100, 200] |
| Series.MetaRecord | api/series.js:24-30 | the meta record parses back with the outcome it was written with |
| Series.Memo | api/series.js:16-31 | a stored meta record is only read, and yields its `finalPctAbs` exactly when it parses to something other than null; otherwise the drawn outcome is stored and returned; no other key, list or hash changes |
| Series.Recorded | api/series.js:16-23 | the outcome a call finds for a round is the draw when no meta record is stored, and also when the stored record is the one the handler writes |
| Series.MemoStable | api/series.js:16-31 | after the first call, every caller reads the same outcome, whatever a later draw would give |
| Series.HistoryEntry | api/series.js:44 | a history entry is a JSON object |
| Series.Commit | api/series.js:39-47 | with a non-empty outcome stored nothing changes; otherwise the outcome, rounded to a whole number, is stored and prepended to a history trimmed to 18; no other key and no hash changes |
| Series.CommitOnce | api/series.js:40-41 | a second commit, with any outcome, changes nothing |
| Series.CommitRounds | api/series.js:42-44 | the committed outcome and the history entry carry the same whole number |
| Series.GuardNeverHolds | api/series.js:37-38 | the commit guard `now >= roundEndAt(roundIdByNow(now))` never holds |
| Series.SeriesAsWritten | api/series.js:6-61 | the handler as written answers the current round and leaves the store unchanged when it fails |
| Series.AsWrittenNeverCommits | api/series.js:36-47 | as written, no outcome is ever committed and the history is never written |
| Series.Series | api/series.js:16-47 | corrected, a GET succeeds exactly when both rounds' outcomes can be read; a fresh commit stores the previous round's memoised outcome rounded to a whole number and prepends the same to the history, kept to 18 entries; an existing commit and the history are left alone; no key changes but the two meta records and the previous round's outcome, and the hashes and "game:history" are untouched; a failure changes no key but the current round's meta record, and only a non-GET is `method` |
| Series.CommitsPrevious | api/series.js:39-42 | after a successful call the previous round's outcome is committed |
| Series.KeepsCommitted | api/series.js:40-41 | once the previous round is committed, any call leaves the commit and the history as they were |
| Series.SeriesCommitsOnce | api/series.js:39-41 | a later call in the same round leaves the previous round's commit and the history as they were |
| Views.History | api/state.js:20-22 | unparsable and falsy entries are dropped; the survivors are projected in order |
| Views.HistoryConcat | api/state.js:20-22 | the view of a concatenation is the concatenation of the views |
| Views.State | api/state.js:6-34 | the state view names the current round: it contains `now`, betting closes BET_MS after the start and the next round starts ROUND_MS after it; the history is the view of the newest 12 entries of "round:history" |
| Views.StateMatchesRoundTimes | api/state.js:12-16 | the state view's round agrees with `getRoundTimes` |
| Views.NormalizeUser | api/balance.js:6-13 | no user exactly when the address is missing or all white space; "guest" as itself; otherwise `Address.parse` throws exactly when the trimmed text does not parse, and the user is its canonical form |
| Views.BalanceTon | api/balance.js:15-41 | `bad_address` exactly when the address normalises to nothing; the 500 `balance_error` exactly when parsing throws; a success is the stored balance divided by 10^9 |
| Views.RejectedAddressFails | api/balance.js:11 | an address that trims to neither "" nor "guest" and does not parse is answered with the 500 `balance_error` |
| Views.DefaultZero | api/balance.js:33-35 | a missing or non-finite balance reads as 0 |
| Views.MethodBeforeRead | api/balance.js:27 | another method is refused whatever the store holds |
| Ledger.PlaceThenCancel | api/bet_cancel.js:42-58 | placing and then cancelling in the same window refunds the amount, restores the balance plus any replaced stake, and leaves no bet to cancel again |
| Ledger.HistoryRoundTrip | api/state.js:20-22 | a history entry written by the series handler reads back as its round and outcome |
| Ledger.CommittedOutcome | api/series.js:16-42 | the corrected handler commits the previous round's drawn outcome, rounded to a whole number, whether its meta record is absent or the one the handler wrote |
| Ledger.PollRecordsMeta | api/series.js:16-31 | a poll during a round leaves that round's meta record as the handler writes it |
| Ledger.FirstPoll | api/series.js:16-47 | a poll leaves its own round's meta record readable and as the handler writes it, and leaves the next round's meta record and its own round's outcome as they were |
| Ledger.NextPollSucceeds | api/series.js:16-31 | a poll succeeds when the outcomes of its round and the previous one can both be read |
| Ledger.RecordedFrame | api/series.js:17-21 | the outcome a poll finds for a round depends only on that round's meta record |
| Ledger.PollThenCommit | api/series.js:16-45 | a poll during a round, then the first poll of the next round (which succeeds when that round's own outcome can be read), together commit the round at its drawn outcome, rounded |
| Ledger.SettleAfterSeries | api/bet_settle.js:52-65 | a bet that was stored, unsettled and readable before the corrected series handler runs in the next round is, after that run, paid at the round's drawn outcome, rounded, whether or not the chart was polled during the round |

## Findings

| source | as written | input that shows it | evidently intended | confidence | as-written member | corrected member |
|---|---|---|---|---|---|---|
| api/series.js:37-38 | `now >= roundEndAt(rid)` with `rid = roundIdByNow(now)` | any `now`: it lies before the end of its own round, so "round:endPct:*" and "round:history" are never written | commit the round that has finished, `rid - 1` | not executed | Series.SeriesAsWritten (Series.GuardNeverHolds, Series.AsWrittenNeverCommits) | Series.Series (Series.SeriesCommitsOnce, Ledger.PollThenCommit, Ledger.SettleAfterSeries) |
| api/bet_settle.js:52-53 | `Number(await redis.get("round:endPct:<rid>"))` with the key absent is `Number(null) == 0` | a long bet of 1000 nano-TON on round 1, settled at 40000 ms with no outcome stored, is paid 1000 at 0% | an uncommitted outcome answers `pending`, as a non-numeric one already does | not executed | Settlement.SettleAsWritten (Settlement.AbsentOutcomeSettlesAtZero, Settlement.AbsentOutcomeExample) | Settlement.Settle (Settlement.AbsentOutcomeStaysPending) |

The first finding explains why settlement needs the second fix. With the
series handler as written nothing is ever committed, so every settlement
would fall into the absent-outcome case.

## Left out

- The Redis client, its construction from the environment (`Redis.fromEnv`, lib/redis.js), and the `redis_init_failed` answer of api/balance.js: the store is a value passed to each handler. lib/redis.js is not part of this model.
- Key expiry (`ex:` and `expire`): a written key stays until deleted. In the source bets, settled markers and committed outcomes expire after 24 hours, series meta records after 6 hours, and deposit and history markers after one hour.
- Deposit.CreditOnce: in the source the `dep:` marker expires after 3600 s (api/deposit_credit.js:36), so the once-only credit holds only within that hour; a retry with the same comment after it is credited again.
- Game.PushOnce: in the source the `historyPushed` marker expires after one hour (lib/game.js:137), so the once-only push holds only within that hour.
- TON address parsing (`Address.parse` and `toString` from @ton/core): this is the configuration function `Config.canonical`, a partial map from text to the canonical key.
- Concurrency between requests: each handler runs atomically. The read-modify-write races on balances are not modelled.
- IEEE-754 rounding: numbers are exact reals. `amt * 1e9`, `/ 1e9` and `toFixed` are computed without binary rounding error.
- Game.SeriesTimes: states the number and times of the chart points only. Their values (lib/game.js:64-81, the random walk toward the outcome) are not modelled.
- The `series` field of the series answer: api/series.js calls `generateVisibleSeries` with three arguments, which lib/game.js declares with four. The chart it returns is not modelled.
- api/bets.js and api/ping.py: outside the round lifecycle and the ledger.
- HTTP status codes, headers and the `message: String(e)` of 500 answers: only the error tag is kept (`Http.Failure`).
- Settlement.SettleStep: a payout answers the bet's side only as whether it is "long" (`Outcome.Paid.long`). api/bet_settle.js:58 and :79 answer `String(bet.side)` word for word, so a stored side such as "LONG" or a missing one ("undefined") is echoed there but not here; the payout itself uses the same test.
- Number answers such as `refundedTon`, `creditedTon`, `returnedTon` and `profitTon`: the model answers in nano-units, and only `Views.BalanceTon` divides by 10^9.
- Upstash's automatic JSON decoding of stored values: each stored string is the `Text` the handler writes, and `JSON.parse` of it is its `json` part.
- Deposit keys `dep:<comment>`: these are keyed by the comment value. Two distinct comments with the same `String()` text (say 1 and "1") are distinct keys here but one key in Redis.
- A non-string `address` in a query string (a repeated parameter arrives as an array): `Views.BalanceTon` takes the address as optional text.
- Bets.CancelConserves: requires the stored `amountNano` to be a coherent JSON value, where a finite non-zero number is truthy. Every record the handlers write satisfies this, but an arbitrary stored value need not.
- Ledger.SettleAfterSeries: requires the previous round's meta record to be absent or the one the series handler writes (`Ledger.MetaAsWritten`, kept by every poll, `Ledger.PollRecordsMeta`), and the drawn outcome in [MIN_Y, MAX_Y]. This is proved for the assumed oracle (`Series.AssumedDrawInRange`), not for an arbitrary `pickOutcomePctForRound`.
- `String(startAt)` in the oracle's seed text (lib/game.js:35): `Strings.DecimalText` writes every integer in plain decimal, where JavaScript switches to exponent notation from 10^21 on. Millisecond clock values stay far below that.
- `roundIdByNow`, `roundStartAt`, `roundEndAt` and `pickOutcomePctForRound`: the handlers import these but lib/game.js does not define them. They are assumed as stated above.

=== FILE: bets.dfy ===
/** Placing and cancelling a bet (api/bet_place.js, api/bet_cancel.js).

    A bet lives under "bet:<rid>:<user>" as the JSON of `{roundId, address,
    side, amountNano, placedAt}`; its stake has already been taken off
    "bal:<user>". Both handlers act only in the current round's betting
    window. */
module Bets {
  import opened Js
  import opened Strings
  import opened Clock
  import opened KeyValue
  import opened Http

  /** `toNano(amountTon)`: a positive finite amount of TON, rounded to whole
      nano-units; None (`null`) for anything else. A tiny amount can round to 0,
      which the handler then rejects as well. */
  function ToNano(v: Option<Json>): (r: Option<int>)
    ensures r.Some? <==> ToNumber(v).Fin? && ToNumber(v).x > 0.0
    ensures r.Some? ==> r.value >= 0
    ensures r.Some? ==> r.value as real - 0.5 <= ToNumber(v).x * 1000000000.0 < r.value as real + 0.5
  {
    var n := ToNumber(v);
    if !n.Fin? || n.x <= 0.0 then None else Some(Round(n.x * 1000000000.0))
  }

  /** The two sides a bet can take. */
  predicate IsSide(w: string)
  {
    w == "long" || w == "short"
  }

  /** `String(side || "").toLowerCase()` when it is "long" or "short", None
      otherwise. Only a string or a value printed through its own text (a
      boolean, an array) can lower-case to one of the two words: a falsy side
      prints as "", a number as a numeral, "Infinity" or "-Infinity", an object
      as "[object Object]". */
  function Side(v: Option<Json>): (r: Option<string>)
    ensures r.Some? ==> IsSide(r.value)
    ensures v.Some? && v.value.JStr? && IsSide(Lower(v.value.s)) ==> r == Some(Lower(v.value.s))
    ensures v.None? || (v.Some? && (v.value.JNum? || v.value.JObj? || v.value.Null?)) ==> r.None?
    ensures v.Some? && v.value.JOther? && v.value.truthy && IsSide(Lower(v.value.text)) ==> r == Some(Lower(v.value.text))
    ensures r.Some? ==>
      && v.Some?
      && ((v.value.JStr? && r.value == Lower(v.value.s)) || (v.value.JOther? && r.value == Lower(v.value.text)))
  {
    var text :=
      if !Truthy(v) then None
      else match v.value
        case JStr(s, _) => Some(s)
        case JOther(_, _, t) => Some(t)
        case _ => None;
    if text.Some? && IsSide(Lower(text.value)) then Some(Lower(text.value)) else None
  }

  /** The user a request names: `canonicalFriendly(address)` of a truthy
      address. */
  function User(cfg: Config, req: Request): Option<string>
  {
    var a := Arg(req, "address");
    if Truthy(a) then Canonical(cfg, a.value) else None
  }

  /** The checks api/bet_place.js makes before it touches the store, in its
      order: method, address present, side, amount, address parses, round is
      the current one, betting window open. None when all pass. */
  function PlaceVerdict(cfg: Config, req: Request, now: int): (r: Option<Failure>)
    ensures r.None? <==>
      && req.verb == PostVerb
      && Side(Arg(req, "side")).Some?
      && ToNano(Arg(req, "amountTon")).Some? && ToNano(Arg(req, "amountTon")).value >= 1
      && User(cfg, req).Some?
      && ToNumber(Arg(req, "roundId")) == Fin(RoundIdByNow(now) as real)
      && now < BetsCloseAt(RoundIdByNow(now))
    ensures r == Some(MethodNotAllowed) <==> req.verb != PostVerb
    ensures r == Some(NoAddress) <==> req.verb == PostVerb && !Truthy(Arg(req, "address"))
    ensures r == Some(BadSide) <==>
      req.verb == PostVerb && Truthy(Arg(req, "address")) && Side(Arg(req, "side")).None?
    ensures r == Some(BadAmount) <==>
      && req.verb == PostVerb && Truthy(Arg(req, "address")) && Side(Arg(req, "side")).Some?
      && !(ToNano(Arg(req, "amountTon")).Some? && ToNano(Arg(req, "amountTon")).value >= 1)
    ensures r == Some(BadAddress) <==>
      && req.verb == PostVerb && Truthy(Arg(req, "address")) && Side(Arg(req, "side")).Some?
      && ToNano(Arg(req, "amountTon")).Some? && ToNano(Arg(req, "amountTon")).value >= 1
      && User(cfg, req).None?
    ensures r == Some(BadRound) <==>
      && req.verb == PostVerb && Side(Arg(req, "side")).Some?
      && ToNano(Arg(req, "amountTon")).Some? && ToNano(Arg(req, "amountTon")).value >= 1
      && User(cfg, req).Some?
      && ToNumber(Arg(req, "roundId")) != Fin(RoundIdByNow(now) as real)
    ensures r == Some(BetsClosed) <==>
      && req.verb == PostVerb && Side(Arg(req, "side")).Some?
      && ToNano(Arg(req, "amountTon")).Some? && ToNano(Arg(req, "amountTon")).value >= 1
      && User(cfg, req).Some?
      && ToNumber(Arg(req, "roundId")) == Fin(RoundIdByNow(now) as real)
      && now >= BetsCloseAt(RoundIdByNow(now))
  {
    if req.verb != PostVerb then Some(MethodNotAllowed)
    else if !Truthy(Arg(req, "address")) then Some(NoAddress)
    else if Side(Arg(req, "side")).None? then Some(BadSide)
    else
      var nano := ToNano(Arg(req, "amountTon"));
      if nano.None? || nano.value == 0 then Some(BadAmount)
      else if User(cfg, req).None? then Some(BadAddress)
      else
        var cur := RoundIdByNow(now);
        var rid := ToNumber(Arg(req, "roundId"));
        if !rid.Fin? || rid.x != cur as real then Some(BadRound)
        else if now >= BetsCloseAt(cur) then Some(BetsClosed)
        else None
  }

  /** What api/bet_place.js refunds from the bet already stored under `k`:
      `Number(old.amountNano)` when the stored text parses and its
      `amountNano` is truthy, and 0 otherwise. This is the live stake. */
  function Stake(s: Store, k: Key): (n: Num)
    ensures !Has(s, k) ==> n == Fin(0.0)
  {
    if !Has(s, k) then Fin(0.0)
    else
      var prior := s.kv[k].json;
      if prior.Some? && Truthy(Field(prior.value, "amountNano")) then ToNumber(Field(prior.value, "amountNano"))
      else Fin(0.0)
  }

  /** `JSON.stringify(bet)` of the record api/bet_place.js stores. The
      address and side strings are not numerals. */
  function BetRecord(rid: int, user: string, side: string, nano: int, now: int): (t: Text)
    ensures t.Chars? && t.json.Some? && t.json.value.JObj?
    ensures Field(t.json.value, "amountNano") == Some(JNum(Fin(nano as real)))
    ensures Field(t.json.value, "side") == Some(JStr(side, NaN))
  {
    JsonText(map[
      "roundId" := JNum(Fin(rid as real)),
      "address" := JStr(user, NaN),
      "side" := JStr(side, NaN),
      "amountNano" := JNum(Fin(nano as real)),
      "placedAt" := JNum(Fin(now as real))])
  }

  /** api/bet_place.js. After validation it refunds the stake of a bet already
      placed in this round, refuses when the refunded balance is below the new
      amount, and otherwise debits the new amount and stores the new bet over
      the old one. The answer is whether an old bet was there (`!!oldRaw`). */
  function Place(cfg: Config, s: Store, req: Request, now: int): (r: Step<bool>)
    ensures PlaceVerdict(cfg, req, now).Some? ==> r == Step(s, Fail(PlaceVerdict(cfg, req, now).value))
    ensures r.reply.Fail? ==> r.store == s
    ensures r.reply.Fail? && PlaceVerdict(cfg, req, now).None? ==> r.reply.failure == Insufficient
  {
    match PlaceVerdict(cfg, req, now)
    case Some(f) => Step(s, Fail(f))
    case None =>
      var user := User(cfg, req).value;
      var side := Side(Arg(req, "side")).value;
      var nano := ToNano(Arg(req, "amountTon")).value;
      var rid := RoundIdByNow(now);
      var key := Bet(rid as real, user);
      var bal := Add(Fin(Balance(s, user)), Stake(s, key));
      if Less(bal, Fin(nano as real)) then Step(s, Fail(Insufficient))
      else
        var s1 := Set(s, Bal(user), NumberText(Add(bal, Fin(-(nano as real)))));
        Step(Set(s1, key, BetRecord(rid, user, side, nano, now)), Ok(Has(s, key)))
  }

  /** The key of the bet a request addresses in the current round. */
  function BetKey(cfg: Config, req: Request, now: int): Key
    requires User(cfg, req).Some?
  {
    Bet(RoundIdByNow(now) as real, User(cfg, req).value)
  }

  /** With validation passed, the answer is `insufficient` exactly when the
      balance plus the refunded stake is below the new amount; a NaN refund
      compares false and lets the bet through. */
  lemma PlaceInsufficientIff(cfg: Config, s: Store, req: Request, now: int)
    requires PlaceVerdict(cfg, req, now).None?
    ensures var user := User(cfg, req).value;
      var stake := Stake(s, BetKey(cfg, req, now));
      var nano := ToNano(Arg(req, "amountTon")).value;
      && (Place(cfg, s, req, now).reply == Fail(Insufficient) <==> Less(Add(Fin(Balance(s, user)), stake), Fin(nano as real)))
      && (stake.Fin? ==>
            (Place(cfg, s, req, now).reply == Fail(Insufficient) <==> Balance(s, user) + stake.x < nano as real))
  {
  }

  /** A successful placement moves the amount from the balance into the bet:
      balance plus live stake is what it was, the balance stays non-negative,
      the new stake is the amount (at least one nano-unit), the answer says
      whether a bet was there, and no other key changes. */
  lemma PlaceConserves(cfg: Config, s: Store, req: Request, now: int)
    requires Place(cfg, s, req, now).reply.Ok?
    requires Stake(s, BetKey(cfg, req, now)).Fin?
    ensures var s' := Place(cfg, s, req, now).store;
      var user := User(cfg, req).value;
      var key := BetKey(cfg, req, now);
      var nano := ToNano(Arg(req, "amountTon")).value;
      && nano >= 1
      && Balance(s', user) + Stake(s', key).x == Balance(s, user) + Stake(s, key).x
      && Balance(s', user) >= 0.0
      && Stake(s', key) == Fin(nano as real)
      && s'.kv[key] == BetRecord(RoundIdByNow(now), user, Side(Arg(req, "side")).value, nano, now)
      && Place(cfg, s, req, now).reply.value == Has(s, key)
      && (forall k :: k != key && k != Bal(user) ==> Get(s', k) == Get(s, k))
      && s'.hashes == s.hashes && s'.roundHistory == s.roundHistory && s'.gameHistory == s.gameHistory
  {
    var user := User(cfg, req).value;
    var key := BetKey(cfg, req, now);
    var nano := ToNano(Arg(req, "amountTon")).value;
    var bal := Add(Fin(Balance(s, user)), Stake(s, key));
    assert !Less(bal, Fin(nano as real));
    SetBalanceReads(s, user, bal.x - nano as real);
  }

  /** An old record that does not parse still counts as replaced, but refunds
      nothing: the new amount comes off the balance alone. */
  lemma PlaceOverUnparsable(cfg: Config, s: Store, req: Request, now: int)
    requires Place(cfg, s, req, now).reply.Ok?
    requires Has(s, BetKey(cfg, req, now)) && s.kv[BetKey(cfg, req, now)].json.None?
    ensures Place(cfg, s, req, now).reply.value
    ensures Balance(Place(cfg, s, req, now).store, User(cfg, req).value)
      == Balance(s, User(cfg, req).value) - ToNano(Arg(req, "amountTon")).value as real
  {
    var user := User(cfg, req).value;
    var nano := ToNano(Arg(req, "amountTon")).value;
    SetBalanceReads(s, user, Balance(s, user) - nano as real);
  }

  /** The checks api/bet_cancel.js makes before it touches the store, in its
      order: method, address present, address parses, round is a finite
      number, round is the current one, betting window open. */
  function CancelVerdict(cfg: Config, req: Request, now: int): (r: Option<Failure>)
    ensures r.None? <==>
      && req.verb == PostVerb
      && User(cfg, req).Some?
      && ToNumber(Arg(req, "roundId")) == Fin(RoundIdByNow(now) as real)
      && now < BetsCloseAt(RoundIdByNow(now))
    ensures r == Some(MethodNotAllowed) <==> req.verb != PostVerb
    ensures r == Some(NoAddress) <==> req.verb == PostVerb && !Truthy(Arg(req, "address"))
    ensures r == Some(BadAddress) <==>
      req.verb == PostVerb && Truthy(Arg(req, "address")) && User(cfg, req).None?
    ensures r == Some(BadRound) <==>
      req.verb == PostVerb && User(cfg, req).Some? && !ToNumber(Arg(req, "roundId")).Fin?
    ensures r == Some(NotCurrentRound) <==>
      && req.verb == PostVerb && User(cfg, req).Some?
      && ToNumber(Arg(req, "roundId")).Fin? && ToNumber(Arg(req, "roundId")) != Fin(RoundIdByNow(now) as real)
    ensures r == Some(BetsClosed) <==>
      && req.verb == PostVerb && User(cfg, req).Some?
      && ToNumber(Arg(req, "roundId")) == Fin(RoundIdByNow(now) as real)
      && now >= BetsCloseAt(RoundIdByNow(now))
  {
    if req.verb != PostVerb then Some(MethodNotAllowed)
    else if !Truthy(Arg(req, "address")) then Some(NoAddress)
    else if User(cfg, req).None? then Some(BadAddress)
    else
      var rid := ToNumber(Arg(req, "roundId"));
      if !rid.Fin? then Some(BadRound)
      else if rid.x != RoundIdByNow(now) as real then Some(NotCurrentRound)
      else if now >= BetsCloseAt(RoundIdByNow(now)) then Some(BetsClosed)
      else None
  }

  /** `Number(bet?.amountNano)` of the record stored under `k`, NaN when it
      does not parse. */
  function StoredAmount(s: Store, k: Key): Num
    requires Has(s, k)
  {
    var bet := s.kv[k].json;
    if bet.Some? then ToNumber(Field(bet.value, "amountNano")) else NaN
  }

  /** api/bet_cancel.js: after validation, `no_bet` without a stored bet,
      `bad_bet` when its amount is not a positive finite number, and otherwise
      the amount goes back onto the balance and the bet is deleted. The answer
      is the refunded amount in nano-units. */
  function Cancel(cfg: Config, s: Store, req: Request, now: int): (r: Step<real>)
    ensures CancelVerdict(cfg, req, now).Some? ==> r == Step(s, Fail(CancelVerdict(cfg, req, now).value))
    ensures r.reply.Fail? ==> r.store == s
    ensures CancelVerdict(cfg, req, now).None? ==>
      (r.reply == Fail(NoBet) <==> !Has(s, BetKey(cfg, req, now)))
    ensures r.reply.Ok? ==> r.reply.value > 0.0 && !Has(r.store, BetKey(cfg, req, now))
    ensures CancelVerdict(cfg, req, now).None? && Has(s, BetKey(cfg, req, now)) ==>
      var amount := StoredAmount(s, BetKey(cfg, req, now));
      && (r.reply == Fail(BadBet) <==> !(amount.Fin? && amount.x > 0.0))
      && (r.reply.Ok? <==> amount.Fin? && amount.x > 0.0)
      && (r.reply.Ok? ==> r.reply.value == amount.x)
  {
    match CancelVerdict(cfg, req, now)
    case Some(f) => Step(s, Fail(f))
    case None =>
      var user := User(cfg, req).value;
      var key := Bet(RoundIdByNow(now) as real, user);
      if !Has(s, key) then Step(s, Fail(NoBet))
      else
        var amount := StoredAmount(s, key);
        if !amount.Fin? || amount.x <= 0.0 then Step(s, Fail(BadBet))
        else
          var s1 := Set(s, Bal(user), NumberText(Fin(Balance(s, user) + amount.x)));
          Step(Del(s1, key), Ok(amount.x))
  }

  /** A successful cancellation moves the stake back: the balance rises by
      exactly the refunded amount, which is the live stake, the bet is gone,
      balance plus live stake is unchanged, and no other key changes. */
  lemma CancelConserves(cfg: Config, s: Store, req: Request, now: int)
    requires Cancel(cfg, s, req, now).reply.Ok?
    requires var key := BetKey(cfg, req, now);
      s.kv[key].json.Some? ==> Coherent(Field(s.kv[key].json.value, "amountNano"))
    ensures var s' := Cancel(cfg, s, req, now).store;
      var user := User(cfg, req).value;
      var key := BetKey(cfg, req, now);
      var refunded := Cancel(cfg, s, req, now).reply.value;
      && Balance(s', user) == Balance(s, user) + refunded
      && Stake(s, key) == Fin(refunded) && Stake(s', key) == Fin(0.0)
      && Balance(s', user) + Stake(s', key).x == Balance(s, user) + Stake(s, key).x
      && (forall k :: k != key && k != Bal(user) ==> Get(s', k) == Get(s, k))
  {
    var user := User(cfg, req).value;
    var key := BetKey(cfg, req, now);
    var amount := StoredAmount(s, key);
    NonZeroIsTruthy(Field(s.kv[key].json.value, "amountNano"));
    SetBalanceReads(s, user, Balance(s, user) + amount.x);
  }
}

=== FILE: clock.dfy ===
/** The round clock: rounds are pure functions of wall-clock milliseconds.

    lib/game.js names a round by its start time (`roundId = startAt`). The API
    handlers name it by its index and import `roundIdByNow`, `roundStartAt` and
    `roundEndAt`, which lib/game.js does not define; they are taken here to be
    `now / ROUND_MS`, `id * ROUND_MS` and `roundStartAt(id) + ROUND_MS`, the
    definitions that agree with lib/game.js's own `nextAt`. */
module Clock {

  const BET_MS: int := 7000
  const ROUND_MS: int := 19000
  /** Imported by api/series.js but not defined by lib/game.js: the play phase
      is the rest of the round. */
  const PLAY_MS: int := ROUND_MS - BET_MS
  const TICK_MS: int := 200

  const MIN_Y: int := -100
  const MAX_Y: int := 200

  /** `Math.floor(now / ROUND_MS)`: Dafny's division by a positive constant
      rounds down for negative times as well. */
  function RoundIdByNow(now: int): int
  {
    now / ROUND_MS
  }

  function RoundStartAt(id: int): int
  {
    id * ROUND_MS
  }

  function RoundEndAt(id: int): int
  {
    RoundStartAt(id) + ROUND_MS
  }

  /** The end of the betting window of round `id`. */
  function BetsCloseAt(id: int): int
  {
    RoundStartAt(id) + BET_MS
  }

  /** `roundEndAt(rid)` for the round number a request carries, which may be any
      finite number: `bet_settle` accepts 1.5 as readily as 2. */
  function RoundEndAtOf(rid: real): real
  {
    rid * ROUND_MS as real + ROUND_MS as real
  }

  /** A time lies in round `id` exactly when `roundIdByNow` names that round. */
  lemma CurrentRound(now: int, id: int)
    ensures RoundIdByNow(now) == id <==> RoundStartAt(id) <= now < RoundEndAt(id)
  {
  }

  /** Round `id + 1` starts where round `id` ends: no gap, no overlap. */
  lemma RoundsAbut(id: int)
    ensures RoundEndAt(id) == RoundStartAt(id + 1)
    ensures RoundIdByNow(RoundEndAt(id)) == id + 1
    ensures RoundIdByNow(RoundEndAt(id) - 1) == id
  {
    CurrentRound(RoundEndAt(id), id + 1);
    CurrentRound(RoundEndAt(id) - 1, id);
  }

  /** For the current round the betting window is its first BET_MS
      milliseconds and the play phase the remaining PLAY_MS. */
  lemma Phases(now: int)
    ensures var id := RoundIdByNow(now);
      && RoundStartAt(id) < BetsCloseAt(id) < RoundEndAt(id)
      && BetsCloseAt(id) - RoundStartAt(id) == BET_MS
      && RoundEndAt(id) - BetsCloseAt(id) == PLAY_MS
      && (now < BetsCloseAt(id) <==> now - RoundStartAt(id) < BET_MS)
  {
  }

  /** `getRoundTimes(now)` of lib/game.js. */
  datatype RoundTimes = RoundTimes(roundId: int, startAt: int, endAt: int, nextAt: int)

  /** The round containing `now`, named by its start time: the start is a
      multiple of ROUND_MS not after `now`, the bet window closes BET_MS later
      and the next round starts ROUND_MS later, after `now`. It is the same
      round the API clock calls `roundIdByNow(now)`. */
  function GetRoundTimes(now: int): (t: RoundTimes)
    ensures t.roundId == t.startAt
    ensures t.startAt % ROUND_MS == 0
    ensures t.startAt <= now < t.nextAt
    ensures t.endAt == t.startAt + BET_MS && t.nextAt == t.startAt + ROUND_MS
    ensures t.startAt < t.endAt < t.nextAt
    ensures t.startAt == RoundStartAt(RoundIdByNow(now)) && t.nextAt == RoundEndAt(RoundIdByNow(now))
  {
    var startAt := (now / ROUND_MS) * ROUND_MS;
    RoundTimes(startAt, startAt, startAt + BET_MS, startAt + ROUND_MS)
  }

  /** The round after `now`'s starts exactly at `nextAt`. */
  lemma NextRoundStartsAtNextAt(now: int)
    ensures GetRoundTimes(GetRoundTimes(now).nextAt).startAt == GetRoundTimes(now).nextAt
  {
    RoundsAbut(RoundIdByNow(now));
  }
}

=== FILE: deposit.dfy ===
/** Crediting a deposit (api/deposit_credit.js): a positive amount of TON is
    added to the balance in nano-units, once per truthy `comment`. */
module Deposit {
  import opened Js
  import opened KeyValue
  import opened Http

  datatype Outcome = AlreadyCredited | Credited(nano: int)

  /** `Math.floor(amt * 1e9)` */
  function Nano(amt: real): int
  {
    (amt * 1000000000.0).Floor
  }

  /** api/deposit_credit.js. Its checks run in the order method, address
      present, amount positive and finite. An address that does not parse makes
      `canonicalFriendly` throw outside any local catch, so the answer is the
      handler's 500 "deposit_credit_error", not "bad_address". With a truthy
      comment whose marker is set the answer is `already_credited`; otherwise
      the marker (when there is a comment) is set and the amount credited. */
  function Credit(cfg: Config, s: Store, req: Request): (r: Step<Outcome>)
    ensures r.reply.Fail? || r.reply == Ok(AlreadyCredited) ==> r.store == s
    ensures r.reply == Fail(BadAmount) <==>
      && req.verb == PostVerb && Truthy(Arg(req, "address"))
      && !(ToNumber(Arg(req, "amountTon")).Fin? && ToNumber(Arg(req, "amountTon")).x > 0.0)
    ensures r.reply == Ok(AlreadyCredited) <==>
      && req.verb == PostVerb && Truthy(Arg(req, "address"))
      && ToNumber(Arg(req, "amountTon")).Fin? && ToNumber(Arg(req, "amountTon")).x > 0.0
      && Canonical(cfg, Arg(req, "address").value).Some?
      && Truthy(Arg(req, "comment")) && Has(s, Dep(Arg(req, "comment").value))
    ensures r.reply == Fail(ServerError("deposit_credit_error")) <==>
      && req.verb == PostVerb && Truthy(Arg(req, "address"))
      && ToNumber(Arg(req, "amountTon")).Fin? && ToNumber(Arg(req, "amountTon")).x > 0.0
      && Canonical(cfg, Arg(req, "address").value).None?
    ensures
      && req.verb == PostVerb && Truthy(Arg(req, "address"))
      && ToNumber(Arg(req, "amountTon")).Fin? && ToNumber(Arg(req, "amountTon")).x > 0.0
      && Canonical(cfg, Arg(req, "address").value).Some?
      && !(Truthy(Arg(req, "comment")) && Has(s, Dep(Arg(req, "comment").value)))
      ==> r.reply == Ok(Credited(Nano(ToNumber(Arg(req, "amountTon")).x)))
  {
    if req.verb != PostVerb then Step(s, Fail(MethodNotAllowed))
    else
      var address := Arg(req, "address");
      if !Truthy(address) then Step(s, Fail(NoAddress))
      else
        var amt := ToNumber(Arg(req, "amountTon"));
        if !amt.Fin? || amt.x <= 0.0 then Step(s, Fail(BadAmount))
        else match Canonical(cfg, address.value)
          case None => Step(s, Fail(ServerError("deposit_credit_error")))
          case Some(user) =>
            var comment := Arg(req, "comment");
            if Truthy(comment) && Has(s, Dep(comment.value)) then Step(s, Ok(AlreadyCredited))
            else
              var s1 := if Truthy(comment) then Set(s, Dep(comment.value), Marker) else s;
              var nano := Nano(amt.x);
              Step(Set(s1, Bal(user), NumberText(Fin(Balance(s1, user) + nano as real))), Ok(Credited(nano)))
  }

  /** A credit adds exactly `floor(amt * 1e9)` nano-units (never a negative
      amount) to the balance, a missing or non-numeric balance counting as 0;
      it sets the comment's marker when there is a comment and changes no
      other key. */
  lemma CreditAdds(cfg: Config, s: Store, req: Request)
    requires Credit(cfg, s, req).reply.Ok? && Credit(cfg, s, req).reply.value.Credited?
    ensures var s' := Credit(cfg, s, req).store;
      var user := Canonical(cfg, Arg(req, "address").value).value;
      var nano := Credit(cfg, s, req).reply.value.nano;
      var comment := Arg(req, "comment");
      && nano == Nano(ToNumber(Arg(req, "amountTon")).x) && nano >= 0
      && Balance(s', user) == Balance(s, user) + nano as real
      && (Truthy(comment) ==> Has(s', Dep(comment.value)))
      && (forall k :: k != Bal(user) && !(Truthy(comment) && k == Dep(comment.value)) ==> Get(s', k) == Get(s, k))
  {
    var amt := ToNumber(Arg(req, "amountTon")).x;
    FloorAtLeast(amt * 1000000000.0, 0);
    var user := Canonical(cfg, Arg(req, "address").value).value;
    var comment := Arg(req, "comment");
    var s1 := if Truthy(comment) then Set(s, Dep(comment.value), Marker) else s;
    assert Balance(s1, user) == Balance(s, user);
    SetBalanceReads(s1, user, Balance(s1, user) + Nano(amt) as real);
  }

  /** With a comment, the same deposit repeated is credited once: the second
      request is answered `already_credited` and changes nothing. */
  lemma CreditOnce(cfg: Config, s: Store, req: Request)
    requires Credit(cfg, s, req).reply.Ok?
    requires Truthy(Arg(req, "comment"))
    ensures var s1 := Credit(cfg, s, req).store;
      Credit(cfg, s1, req) == Step(s1, Ok(AlreadyCredited))
  {
    if Credit(cfg, s, req).reply.value.Credited? {
      CreditAdds(cfg, s, req);
    }
  }

  /** Without a comment nothing is deduplicated: the same request credits the
      amount again. */
  lemma NoCommentCreditsAgain(cfg: Config, s: Store, req: Request)
    requires Credit(cfg, s, req).reply.Ok?
    requires !Truthy(Arg(req, "comment"))
    ensures var s1 := Credit(cfg, s, req).store;
      var user := Canonical(cfg, Arg(req, "address").value).value;
      var nano := Nano(ToNumber(Arg(req, "amountTon")).x);
      && Credit(cfg, s1, req).reply == Ok(Credited(nano))
      && Balance(Credit(cfg, s1, req).store, user) == Balance(s, user) + 2.0 * nano as real
  {
    CreditAdds(cfg, s, req);
    CreditAdds(cfg, Credit(cfg, s, req).store, req);
  }
}

=== FILE: game.dfy ===
/** The round bookkeeping of lib/game.js: the per-round meta hash that fixes
    the outcome once, the "game:history" list that records each finished round
    once, and the step counts of the visible chart. */
module Game {
  import opened Js
  import opened Clock
  import opened KeyValue
  import Oracle

  /** What `getRoundMeta` returns: the fields of the stored hash read back with
      `Number` (a missing field reads as NaN). */
  datatype RoundMeta = RoundMeta(roundId: int, startAt: Num, endAt: Num, nextAt: Num, finalPct: Num)

  /** `Number(meta[field])` of a hash as `hgetall` returns it. */
  function HashNumber(h: map<string, Text>, field: string): (n: Num)
    ensures field !in h ==> n == NaN
  {
    if field in h then TextNumber(h[field]) else NaN
  }

  /** The hash "round:<startAt>:meta", empty when absent. */
  function MetaHash(s: Store, startAt: int): map<string, Text>
  {
    if startAt in s.hashes then s.hashes[startAt] else map[]
  }

  /** `meta && meta.startAt`: the hash holds a non-empty `startAt`. */
  predicate MetaWritten(s: Store, startAt: int)
  {
    var h := MetaHash(s, startAt);
    "startAt" in h && h["startAt"].Chars?
  }

  function MetaOf(roundId: int, h: map<string, Text>): RoundMeta
  {
    RoundMeta(roundId, HashNumber(h, "startAt"), HashNumber(h, "endAt"),
              HashNumber(h, "nextAt"), HashNumber(h, "finalPct"))
  }

  /** The outcome `getRoundMeta` stores for the round starting at `startAt`:
      `Number(finalPct.toFixed(6))`. */
  function FreshFinalPct(secret: string, startAt: int): (pct: real)
    ensures MIN_Y as real <= pct <= MAX_Y as real
  {
    var p := Oracle.PickOutcomePct(secret, startAt);
    ToFixedWithin(p, 6, MIN_Y, MAX_Y);
    ToFixed(p, 6)
  }

  /** The hash after `hset` of the four fields over `h`. */
  function WriteMeta(h: map<string, Text>, t: RoundTimes, finalPct: real): (h': map<string, Text>)
    ensures MetaOf(t.roundId, h') == RoundMeta(t.roundId, Fin(t.startAt as real), Fin(t.endAt as real),
                                               Fin(t.nextAt as real), Fin(finalPct))
    ensures "startAt" in h' && h'["startAt"].Chars?
    ensures forall f :: f in h && f != "startAt" && f != "endAt" && f != "nextAt" && f != "finalPct" ==>
              f in h' && h'[f] == h[f]
  {
    h["startAt" := NumberText(Fin(t.startAt as real))]
     ["endAt" := NumberText(Fin(t.endAt as real))]
     ["nextAt" := NumberText(Fin(t.nextAt as real))]
     ["finalPct" := NumberText(Fin(finalPct))]
  }

  /** `getRoundMeta(now)`. When the round's hash has no non-empty `startAt` it
      writes the four fields (over whatever else the hash holds) and reads them
      back; otherwise it only reads. Either way the returned meta is the
      stored hash read with `Number`, and only that round's hash changes. */
  function GetRoundMeta(s: Store, secret: string, now: int): (r: (Store, RoundMeta))
    ensures r.1.roundId == GetRoundTimes(now).startAt
    ensures r.1 == MetaOf(GetRoundTimes(now).startAt, MetaHash(r.0, GetRoundTimes(now).startAt))
    ensures MetaWritten(r.0, GetRoundTimes(now).startAt)
    ensures r.0.kv == s.kv && r.0.roundHistory == s.roundHistory && r.0.gameHistory == s.gameHistory
    ensures forall a :: a != GetRoundTimes(now).startAt ==> MetaHash(r.0, a) == MetaHash(s, a)
    ensures MetaWritten(s, GetRoundTimes(now).startAt) ==> r.0 == s
    ensures !MetaWritten(s, GetRoundTimes(now).startAt) ==>
      var t := GetRoundTimes(now);
      r.1 == RoundMeta(t.startAt, Fin(t.startAt as real), Fin(t.endAt as real), Fin(t.nextAt as real),
                       Fin(FreshFinalPct(secret, t.startAt)))
  {
    var t := GetRoundTimes(now);
    var h := MetaHash(s, t.startAt);
    if MetaWritten(s, t.startAt) then
      (s, MetaOf(t.roundId, h))
    else
      var h' := WriteMeta(h, t, FreshFinalPct(secret, t.startAt));
      (s.(hashes := s.hashes[t.startAt := h']), MetaOf(t.roundId, h'))
  }

  /** Every caller within one round sees the same meta, and only the first
      call writes: a second call leaves the store as the first left it. */
  lemma MetaWriteOnce(s: Store, secret: string, now: int, later: int)
    requires GetRoundTimes(later).startAt == GetRoundTimes(now).startAt
    ensures var (s1, m1) := GetRoundMeta(s, secret, now);
      GetRoundMeta(s1, secret, later) == (s1, m1)
  {
  }

  /** A freshly written meta carries an outcome inside [MIN_Y, MAX_Y] and a
      `nextAt` after `now`. */
  lemma FreshMetaInRange(s: Store, secret: string, now: int)
    requires !MetaWritten(s, GetRoundTimes(now).startAt)
    ensures var m := GetRoundMeta(s, secret, now).1;
      && m.finalPct.Fin? && MIN_Y as real <= m.finalPct.x <= MAX_Y as real
      && Less(Fin(now as real), m.nextAt)
  {
  }

  /** `pushHistoryIfFinished(meta, now)`: once the round is over (`now` not
      before `nextAt`, which NaN never is) and its marker is absent, prepend
      "<roundId>:<finalPct>" to "game:history", trim it to 12 entries and set
      the marker. */
  function PushHistoryIfFinished(s: Store, meta: RoundMeta, now: int): (r: Store)
    ensures Less(Fin(now as real), meta.nextAt) || Has(s, HistoryPushed(meta.roundId)) ==> r == s
    ensures !Less(Fin(now as real), meta.nextAt) && !Has(s, HistoryPushed(meta.roundId)) ==>
      && r.gameHistory == Take([GameEntry(meta.roundId, meta.finalPct)] + s.gameHistory, 12)
      && r.kv == s.kv[HistoryPushed(meta.roundId) := Marker]
      && r.hashes == s.hashes && r.roundHistory == s.roundHistory
    ensures |s.gameHistory| <= 12 ==> |r.gameHistory| <= 12
    ensures Has(r, HistoryPushed(meta.roundId)) || Less(Fin(now as real), meta.nextAt)
  {
    if Less(Fin(now as real), meta.nextAt) then s
    else if Has(s, HistoryPushed(meta.roundId)) then s
    else
      var pushed := Take([GameEntry(meta.roundId, meta.finalPct)] + s.gameHistory, 12);
      Set(s.(gameHistory := pushed), HistoryPushed(meta.roundId), Marker)
  }

  /** A round enters the history at most once: pushing again changes nothing,
      and a push leaves the round at the head of a list of at most 12. */
  lemma PushOnce(s: Store, meta: RoundMeta, now: int, later: int)
    requires !Less(Fin(now as real), meta.nextAt)
    ensures var s1 := PushHistoryIfFinished(s, meta, now);
      && PushHistoryIfFinished(s1, meta, later) == s1
      && (!Has(s, HistoryPushed(meta.roundId)) ==>
            |s1.gameHistory| <= 12 && s1.gameHistory[0] == GameEntry(meta.roundId, meta.finalPct))
  {
  }

  /** `totalSteps` of `generateVisibleSeries`: the round's length in ticks, at
      least 30. */
  function TotalSteps(startAt: int, nextAt: int): (n: int)
    ensures n >= 30
    ensures n >= (nextAt - startAt) / TICK_MS
  {
    if (nextAt - startAt) / TICK_MS > 30 then (nextAt - startAt) / TICK_MS else 30
  }

  /** `visibleSteps`: the ticks elapsed since `startAt`, at least 1 and at most
      `totalSteps`. */
  function VisibleSteps(startAt: int, nextAt: int, now: int): (n: int)
    ensures 1 <= n <= TotalSteps(startAt, nextAt)
    ensures 1 <= (now - startAt) / TICK_MS <= TotalSteps(startAt, nextAt) ==> n == (now - startAt) / TICK_MS
  {
    var total := TotalSteps(startAt, nextAt);
    var elapsed := (now - startAt) / TICK_MS;
    if elapsed < 1 then 1 else if elapsed > total then total else elapsed
  }

  /** The times of the points `generateVisibleSeries(startAt, nextAt, _, now)`
      returns: one per tick from `startAt` through `visibleSteps`, then a final
      point at `nextAt` once the round is over. When the round is a whole
      number of ticks, the last tick already falls at `nextAt`, and the final
      point repeats its time. The values of the points are
      not modelled. */
  method SeriesTimes(startAt: int, nextAt: int, now: int) returns (ts: seq<int>)
    ensures var visible := VisibleSteps(startAt, nextAt, now);
      && |ts| == visible + 1 + (if now >= nextAt then 1 else 0)
      && (forall i :: 0 <= i <= visible ==> ts[i] == startAt + i * TICK_MS)
      && (now >= nextAt ==> ts[|ts| - 1] == nextAt)
    ensures forall i, j :: 0 <= i < j <= VisibleSteps(startAt, nextAt, now) ==> ts[i] < ts[j]
    ensures now >= nextAt && (nextAt - startAt) % TICK_MS == 0 && (nextAt - startAt) / TICK_MS >= 30 ==>
      ts[|ts| - 2] == ts[|ts| - 1] == nextAt
  {
    var visible := VisibleSteps(startAt, nextAt, now);
    ts := [];
    var i := 0;
    while i <= visible
      invariant 0 <= i <= visible + 1
      invariant |ts| == i
      invariant forall k :: 0 <= k < i ==> ts[k] == startAt + k * TICK_MS
    {
      ts := ts + [startAt + i * TICK_MS];
      i := i + 1;
    }
    if now >= nextAt {
      ts := ts + [nextAt];
    }
  }
}

=== FILE: http.dfy ===
/** What the handlers share about requests and responses, without the HTTP
    plumbing: a handler sees the request method and the parsed JSON body (or
    query), and answers either an error tag or a result. Status codes, headers
    and CORS are not modelled beyond the error tag. */
module Http {
  import opened Js
  import opened KeyValue

  datatype Verb = GetVerb | PostVerb | OtherVerb

  /** The error tags the handlers answer with. `ServerError` is the catch-all
      500 answer each handler gives when something throws, carrying its tag
      ("bet_settle_error", "deposit_credit_error", ...). */
  datatype Failure =
    | MethodNotAllowed        // 405 "method"
    | NoAddress               // 400 "no_address"
    | BadAddress              // 400 "bad_address"
    | BadSide                 // 400 "bad_side"
    | BadAmount               // 400 "bad_amount"
    | BadRound                // 400 "bad_round"
    | BetsClosed              // 400 "bets_closed"
    | Insufficient            // 400 "insufficient"
    | NotCurrentRound         // 400 "not_current_round"
    | NoBet                   // 404 "no_bet"
    | BadBet                  // 400 "bad_bet"
    | ServerError(tag: string) // 500

  datatype Reply<+T> = Fail(failure: Failure) | Ok(value: T)

  /** One handler invocation: the store it leaves and the answer it gives. */
  datatype Step<+T> = Step(store: Store, reply: Reply<T>)

  /** A request: its method and `req.body`, None when the body is
      `undefined`. */
  datatype Request = Request(verb: Verb, body: Option<Json>)

  /** One field of `req.body || {}`: a falsy body reads as `{}` and a body that
      is not an object has none of the fields the handlers destructure. */
  function Arg(req: Request, name: string): (v: Option<Json>)
    ensures v.Some? ==> req.body.Some? && req.body.value.JObj?
  {
    if req.body.Some? then Field(req.body.value, name) else None
  }

  /** The deployment's fixed inputs. `canonical` is `Address.parse(a)`
      followed by its non-bounceable, url-safe `toString`: a partial function
      from address text to the canonical user key, None where parsing throws.
      `secret` is the SECRET_SEED the outcome oracle is seeded with. */
  datatype Config = Config(canonical: string -> Option<string>, secret: string)

  /** `String(addr)` for an address value. A number prints as a numeral, which
      is never a TON address (a raw address holds a colon and a friendly one is
      48 characters of base64), so numbers are given no text here and their
      parse fails. */
  function AddressText(v: Json): Option<string>
  {
    match v
    case Null => Some("null")
    case JNum(_) => None
    case JStr(s, _) => Some(s)
    case JOther(_, _, text) => Some(text)
    case JObj(_) => Some("[object Object]")
  }

  /** `canonicalFriendly(addr)`: None where it throws. */
  function Canonical(cfg: Config, v: Json): (r: Option<string>)
    ensures v.JNum? ==> r.None?
    ensures v.JStr? ==> r == cfg.canonical(v.s)
  {
    match AddressText(v)
    case None => None
    case Some(t) => cfg.canonical(t)
  }
}

=== FILE: js.dfy ===
/** JavaScript values as the handlers observe them, over exact arithmetic.

    Numbers are taken as exact reals: IEEE-754 rounding is not modelled, but the
    three non-finite values are, because several handlers branch on
    `Number.isFinite`. A stored string is described by the things a handler ever
    learns from it: whether it is empty, what `Number(s)` makes of it and what
    `JSON.parse(s)` makes of it.
 */
module Js {

  datatype Option<+T> = None | Some(value: T)

  /** A JavaScript number: a finite value, NaN, or one of the two infinities. */
  datatype Num = Fin(x: real) | NaN | PosInf | NegInf {

    /** `Number.isFinite(n)` */
    predicate IsFinite() { Fin? }

    /** The truthiness of a number: 0 and NaN are falsy, every other number,
        the two infinities included, is truthy. */
    predicate Truthy() { !NaN? && (Fin? ==> x != 0.0) }

    /** `Number.isFinite(n) ? n : 0`, the defensive read every handler applies to a balance. */
    function FiniteOr0(): real {
      if Fin? then x else 0.0
    }
  }

  /** `a + b` on JavaScript numbers. */
  function Add(a: Num, b: Num): (r: Num)
    ensures r.Fin? <==> a.Fin? && b.Fin?
    ensures r.Fin? ==> r.x == a.x + b.x
    ensures a.NaN? || b.NaN? ==> r.NaN?
  {
    match (a, b)
    case (Fin(x), Fin(y)) => Fin(x + y)
    case (NaN, _) => NaN
    case (_, NaN) => NaN
    case (PosInf, NegInf) => NaN
    case (NegInf, PosInf) => NaN
    case (PosInf, _) => PosInf
    case (_, PosInf) => PosInf
    case _ => NegInf
  }

  /** `a - b` on JavaScript numbers. */
  function Sub(a: Num, b: Num): (r: Num)
    ensures r.Fin? <==> a.Fin? && b.Fin?
    ensures r.Fin? ==> r.x == a.x - b.x
  {
    Add(a, match b case Fin(y) => Fin(-y) case NaN => NaN case PosInf => NegInf case NegInf => PosInf)
  }

  /** `Math.max(lo, Math.min(hi, x))` for a finite `x`. */
  function Clamp(x: real, lo: real, hi: real): (r: real)
    requires lo <= hi
    ensures lo <= r <= hi
    ensures lo <= x <= hi ==> r == x
    ensures x < lo ==> r == lo
    ensures hi < x ==> r == hi
  {
    if x < lo then lo else if hi < x then hi else x
  }

  /** `a < b` on JavaScript numbers: every comparison with NaN is false. */
  predicate Less(a: Num, b: Num)
  {
    match (a, b)
    case (Fin(x), Fin(y)) => x < y
    case (NegInf, Fin(_)) => true
    case (NegInf, PosInf) => true
    case (Fin(_), PosInf) => true
    case _ => false
  }

  /** `Math.round(y)`: the nearest integer, halves rounded up. */
  function Round(y: real): (n: int)
    ensures n as real - 0.5 <= y < n as real + 0.5
  {
    (y + 0.5).Floor
  }

  function Pow10(d: nat): (r: nat)
    ensures r >= 1
  {
    if d == 0 then 1 else 10 * Pow10(d - 1)
  }

  /** A non-negative magnitude rounded to `digits` decimals, ties upwards. */
  function RoundMagnitude(m: real, digits: nat): real
  {
    ((m * Pow10(digits) as real + 0.5).Floor as real) / Pow10(digits) as real
  }

  /** `Number(x.toFixed(digits))` for a finite `x`: the magnitude is rounded to
      `digits` decimals with ties going away from zero, the sign is kept. */
  function ToFixed(x: real, digits: nat): real
  {
    if x < 0.0 then -RoundMagnitude(-x, digits) else RoundMagnitude(x, digits)
  }

  /** `Number(n.toFixed(digits))` for any JavaScript number: NaN and the
      infinities print as themselves and read back unchanged. */
  function FixedNum(n: Num, digits: nat): Num
  {
    if n.Fin? then Fin(ToFixed(n.x, digits)) else n
  }

  lemma MulMonotone(a: real, b: real, c: real)
    requires a <= b && 0.0 <= c
    ensures a * c <= b * c
  {
  }

  lemma DivMonotone(a: real, b: real, c: real)
    requires a <= b && 0.0 < c
    ensures a / c <= b / c
  {
  }

  lemma FloorAtMost(y: real, k: int)
    requires y < k as real + 1.0
    ensures y.Floor <= k
  {
  }

  lemma FloorAtLeast(y: real, k: int)
    requires k as real <= y
    ensures k <= y.Floor
  {
  }

  /** Scaling a non-negative whole number by at most `k` and rounding down
      gives at most `k` times the number. */
  lemma ScaledFloorAtMost(n: int, f: real, k: int)
    requires n >= 0 && f <= k as real
    ensures (n as real * f).Floor <= k * n
  {
    var a := n as real;
    MulMonotone(f, k as real, a);
    assert a * f <= k as real * a;
    assert k as real * a == (k * n) as real;
    FloorAtMost(a * f, k * n);
  }

  /** The product of two whole numbers, cast to a real. */
  lemma CastProduct(k: int, s: int)
    ensures (k * s) as real == k as real * s as real
  {
  }

  /** Dividing a multiple of a positive scale by it gives the factor back. */
  lemma DivCancel(k: int, s: int)
    requires s > 0
    ensures (k * s) as real / s as real == k as real
  {
    CastProduct(k, s);
  }

  /** The value `RoundMagnitude` rounds before dividing by the scale. */
  function Scaled(m: real, digits: nat): int
  {
    (m * Pow10(digits) as real + 0.5).Floor
  }

  lemma RoundMagnitudeIsScaled(m: real, digits: nat)
    ensures RoundMagnitude(m, digits) == Scaled(m, digits) as real / Pow10(digits) as real
  {
  }

  /** Rounding a magnitude at most `k` to decimals gives at most `k`. */
  lemma RoundMagnitudeAtMost(m: real, digits: nat, k: int)
    requires m <= k as real
    ensures RoundMagnitude(m, digits) <= k as real
  {
    var s := Pow10(digits);
    MulMonotone(m, k as real, s as real);
    CastProduct(k, s);
    FloorAtMost(m * s as real + 0.5, k * s);
    assert Scaled(m, digits) <= k * s;
    DivMonotone(Scaled(m, digits) as real, (k * s) as real, s as real);
    DivCancel(k, s);
    RoundMagnitudeIsScaled(m, digits);
  }

  /** Rounding a magnitude at least `k` to decimals gives at least `k`. */
  lemma RoundMagnitudeAtLeast(m: real, digits: nat, k: int)
    requires k as real <= m
    ensures k as real <= RoundMagnitude(m, digits)
  {
    var s := Pow10(digits);
    MulMonotone(k as real, m, s as real);
    CastProduct(k, s);
    FloorAtLeast(m * s as real + 0.5, k * s);
    assert k * s <= Scaled(m, digits);
    DivMonotone((k * s) as real, Scaled(m, digits) as real, s as real);
    DivCancel(k, s);
    RoundMagnitudeIsScaled(m, digits);
  }

  /** `Number(x.toFixed(digits))` of a value inside integer bounds stays inside them. */
  lemma ToFixedWithin(x: real, digits: nat, lo: int, hi: int)
    requires lo as real <= x <= hi as real
    ensures lo as real <= ToFixed(x, digits) <= hi as real
  {
    if x < 0.0 {
      RoundMagnitudeAtMost(-x, digits, -lo);
      RoundMagnitudeAtLeast(-x, digits, if hi < 0 then -hi else 0);
    } else {
      RoundMagnitudeAtMost(x, digits, hi);
      RoundMagnitudeAtLeast(x, digits, if lo < 0 then 0 else lo);
    }
  }

  /** `Number(x.toFixed(0))` is a whole number. */
  lemma ToFixedZeroIsWhole(x: real)
    ensures ToFixed(x, 0) == ToFixed(x, 0).Floor as real
  {
    var m := if x < 0.0 then -x else x;
    MagnitudeZero(m);
    var n := (m + 0.5).Floor;
    if x < 0.0 {
      assert ToFixed(x, 0) == (-n) as real;
    } else {
      assert ToFixed(x, 0) == n as real;
    }
  }

  /** Rounding to no decimals is rounding half up to a whole number. */
  lemma MagnitudeZero(m: real)
    ensures RoundMagnitude(m, 0) == (m + 0.5).Floor as real
  {
    assert Pow10(0) == 1;
  }

  /** A JSON value as the handlers use it. Booleans and arrays, which no handler
      looks inside, are described by their coercions only. */
  datatype Json =
    | Null
    | JNum(n: Num)
    | JStr(s: string, number: Num)
    | JOther(truthy: bool, number: Num, text: string)
    | JObj(fields: map<string, Json>)

  /** `Boolean(v)` for a property read; `None` is `undefined`. */
  predicate Truthy(v: Option<Json>)
  {
    match v
    case None => false
    case Some(Null) => false
    case Some(JNum(n)) => n.Truthy()
    case Some(JStr(s, _)) => s != ""
    case Some(JOther(t, _, _)) => t
    case Some(JObj(_)) => true
  }

  /** `Number(v)` for a property read; `Number(undefined)` is NaN, `Number(null)` is 0. */
  function ToNumber(v: Option<Json>): Num
  {
    match v
    case None => NaN
    case Some(Null) => Fin(0.0)
    case Some(JNum(n)) => n
    case Some(JStr(_, n)) => n
    case Some(JOther(_, n, _)) => n
    case Some(JObj(_)) => NaN
  }

  /** `j?.name`: a property of a parsed object; any other value has none of the
      properties the handlers ask for. */
  function Field(j: Json, name: string): Option<Json>
  {
    if j.JObj? && name in j.fields then Some(j.fields[name]) else None
  }

  ghost predicate LowerWord(t: string)
  {
    forall i :: 0 <= i < |t| ==> 'a' <= t[i] <= 'z'
  }

  /** `String(v) === t` for a word `t` of lower-case letters. The text of a
      number always holds a digit or a capital letter, and an object prints as
      "[object Object]", so neither ever equals such a word. */
  predicate StringIs(v: Option<Json>, t: string)
    requires LowerWord(t)
  {
    match v
    case None => t == "undefined"
    case Some(Null) => t == "null"
    case Some(JNum(_)) => false
    case Some(JStr(s, _)) => s == t
    case Some(JOther(_, _, text)) => text == t
    case Some(JObj(_)) => false
  }

  /** A value whose truthiness agrees with its number the way real JSON values
      do: the only falsy string is "" (which reads as 0) and the only falsy
      value among booleans and arrays is `false` (which reads as 0). */
  predicate Coherent(v: Option<Json>)
  {
    match v
    case Some(JStr(s, n)) => s == "" ==> n == Fin(0.0)
    case Some(JOther(t, n, _)) => !t ==> n == Fin(0.0)
    case _ => true
  }

  /** For a coherent value, a finite non-zero number is truthy. */
  lemma NonZeroIsTruthy(v: Option<Json>)
    requires Coherent(v)
    ensures ToNumber(v).Fin? && ToNumber(v).x != 0.0 ==> Truthy(v)
  {
  }

  /** How `JSON.stringify` writes a number: NaN and the infinities become null. */
  function JsonOfNum(n: Num): Json
  {
    if n.Fin? then JNum(n) else Null
  }

  /** A string held by the store: empty, or a non-empty text described by
      `Number(text)` and by `JSON.parse(text)` (None when parsing throws). */
  datatype Text = Empty | Chars(number: Num, json: Option<Json>)

  /** `Number(text)`: the empty string reads as 0. */
  function TextNumber(t: Text): Num
  {
    if t.Empty? then Fin(0.0) else t.number
  }

  /** `JSON.parse(text)`, None when it throws (the empty string does). */
  function TextJson(t: Text): Option<Json>
  {
    if t.Empty? then None else t.json
  }

  /** `String(n)`: the text of a number. Reading it back with `Number` gives
      `n`; it parses as JSON only when `n` is finite ("NaN" and "Infinity" do not). */
  function NumberText(n: Num): (t: Text)
    ensures t.Chars? && TextNumber(t) == n
    ensures n.Fin? <==> TextJson(t).Some?
  {
    Chars(n, if n.Fin? then Some(JNum(n)) else None)
  }

  /** `JSON.stringify(o)` of an object: "{...}" is non-empty, not a numeral, and
      parses back to the same object. */
  function JsonText(fields: map<string, Json>): (t: Text)
    ensures t.Chars? && TextJson(t) == Some(JObj(fields))
    ensures TextNumber(t) == NaN
  {
    Chars(NaN, Some(JObj(fields)))
  }

  /** The marker text "1" that the handlers write for "done". */
  const Marker: Text := NumberText(Fin(1.0))
}

=== FILE: ledger.dfy ===
/** Properties that span several handlers: a bet placed and cancelled in the
    same window, the history written by the series handler as the state view
    reads it, and settlement after the corrected series handler has committed
    the round. */
module Ledger {
  import opened Js
  import opened Clock
  import opened KeyValue
  import opened Http
  import Bets
  import Settlement
  import Series
  import Views

  /** Placing a bet and cancelling it later in the same betting window gives
      back the amount: the balance ends where it was plus whatever stake the
      placement replaced (nothing, for a first bet), and a second
      cancellation finds no bet. */
  lemma PlaceThenCancel(cfg: Config, s: Store, req: Request, now: int, later: int)
    requires Bets.Place(cfg, s, req, now).reply.Ok?
    requires Bets.Stake(s, Bets.BetKey(cfg, req, now)).Fin?
    requires RoundIdByNow(later) == RoundIdByNow(now) && later < BetsCloseAt(RoundIdByNow(now))
    ensures var user := Bets.User(cfg, req).value;
      var key := Bets.BetKey(cfg, req, now);
      var s1 := Bets.Place(cfg, s, req, now).store;
      var c := Bets.Cancel(cfg, s1, req, later);
      && c.reply == Ok(Bets.ToNano(Arg(req, "amountTon")).value as real)
      && Balance(c.store, user) == Balance(s, user) + Bets.Stake(s, key).x
      && (!Has(s, key) ==> Balance(c.store, user) == Balance(s, user))
      && Bets.Cancel(cfg, c.store, req, later).reply == Fail(NoBet)
  {
    var user := Bets.User(cfg, req).value;
    var key := Bets.BetKey(cfg, req, now);
    var s1 := Bets.Place(cfg, s, req, now).store;
    Bets.PlaceConserves(cfg, s, req, now);
    assert Bets.CancelVerdict(cfg, req, later).None?;
    assert Has(s1, key);
    var nano := Bets.ToNano(Arg(req, "amountTon")).value;
    assert Bets.StoredAmount(s1, key) == Fin(nano as real);
    Bets.CancelConserves(cfg, s1, req, later);
  }

  /** An entry the series handler writes reads back in the state view as its
      round and outcome; an outcome that is not a number was written as null
      and reads back as 0. */
  lemma HistoryRoundTrip(rid: int, pct: Num, now: int)
    ensures Views.History([Series.HistoryEntry(rid, pct, now)])
      == [Views.Point(Fin(rid as real), if pct.Fin? then pct else Fin(0.0))]
  {
    var t := Series.HistoryEntry(rid, pct, now);
    assert Views.Kept(t);
    assert [t][1..] == [];
  }

  /** The meta record of round `rid - 1` is either absent or the one the
      series handler writes for it: what every store reached by the handlers
      holds. */
  predicate MetaAsWritten(pick: int -> real, s: Store, rid: int)
  {
    !Has(s, SeriesMeta(rid - 1)) || s.kv[SeriesMeta(rid - 1)] == Series.MetaRecord(rid - 1, Series.DrawnOutcome(pick, rid - 1))
  }

  /** Once the corrected series handler has run in round `rid`, a settlement
      of round `rid - 1` that had nothing committed before is paid at the
      drawn outcome rounded to a whole number, whether or not the chart was
      polled during round `rid - 1`. The draw lies in [MIN_Y, MAX_Y] for the
      assumed oracle (`Series.AssumedDrawInRange`), so the outcome is not
      clamped. */
  lemma SettleAfterSeries(pick: int -> real, cfg: Config, s: Store, now: int, req: Request, later: int)
    requires MIN_Y as real <= Series.DrawnOutcome(pick, RoundIdByNow(now) - 1) <= MAX_Y as real
    requires Series.Series(pick, s, GetVerb, now).reply.Ok?
    requires !Has(s, EndPct((RoundIdByNow(now) - 1) as real))
    requires MetaAsWritten(pick, s, RoundIdByNow(now))
    requires Settlement.ReadsOutcome(cfg, s, req, later)
    requires !s.kv[Bet(Settlement.Rid(req), Bets.User(cfg, req).value)].json.value.Null?
    requires Settlement.Rid(req) == (RoundIdByNow(now) - 1) as real
    ensures var s1 := Series.Series(pick, s, GetVerb, now).store;
      var r := Settlement.Settle(cfg, s1, req, later).reply;
      r.Ok? && r.value.Paid?
      && r.value.pct == ToFixed(Series.DrawnOutcome(pick, RoundIdByNow(now) - 1), 0)
  {
    var rid := RoundIdByNow(now);
    var d := Series.DrawnOutcome(pick, rid - 1);
    ToFixedWithin(d, 0, MIN_Y, MAX_Y);
    var s1 := Series.Series(pick, s, GetVerb, now).store;
    var user := Bets.User(cfg, req).value;
    assert Get(s1, Bet(Settlement.Rid(req), user)) == Get(s, Bet(Settlement.Rid(req), user));
    assert Get(s1, Settled(Settlement.Rid(req), user)) == Get(s, Settled(Settlement.Rid(req), user));
    assert Settlement.ReadsOutcome(cfg, s1, req, later);
    CommittedOutcome(pick, s, now);
    assert NumberOr0(s1, EndPct((rid - 1) as real)) == Fin(ToFixed(d, 0));
    Settlement.SettlePaysIff(true, cfg, s1, req, later);
  }

  /** What the corrected series handler commits for the previous round when
      its outcome was not stored yet and its meta record is absent or the
      handler's own. */
  lemma CommittedOutcome(pick: int -> real, s: Store, now: int)
    requires Series.Series(pick, s, GetVerb, now).reply.Ok?
    requires !Has(s, EndPct((RoundIdByNow(now) - 1) as real))
    requires MetaAsWritten(pick, s, RoundIdByNow(now))
    ensures var s1 := Series.Series(pick, s, GetVerb, now).store;
      var k := EndPct((RoundIdByNow(now) - 1) as real);
      k in s1.kv && s1.kv[k] == NumberText(Fin(ToFixed(Series.DrawnOutcome(pick, RoundIdByNow(now) - 1), 0)))
  {
    var rid := RoundIdByNow(now);
    assert Series.Recorded(s, rid - 1, pick) == Some(Fin(Series.DrawnOutcome(pick, rid - 1)));
  }

  /** A poll of the chart during a round stores that round's own meta record,
      so the next round's first poll finds a record as the handler writes it. */
  lemma PollRecordsMeta(pick: int -> real, s: Store, t: int)
    requires Series.Series(pick, s, GetVerb, t).reply.Ok?
    requires MetaAsWritten(pick, s, RoundIdByNow(t) + 1)
    ensures MetaAsWritten(pick, Series.Series(pick, s, GetVerb, t).store, RoundIdByNow(t) + 1)
  {
  }

  /** The normal lifecycle: the chart is polled during round `rid`, and the
      first poll of round `rid + 1` commits round `rid` at its drawn outcome
      rounded to a whole number, the value that poll memoised. */
  lemma PollThenCommit(pick: int -> real, s: Store, t: int, now: int)
    requires Series.Series(pick, s, GetVerb, t).reply.Ok?
    requires MetaAsWritten(pick, s, RoundIdByNow(t) + 1)
    requires RoundIdByNow(now) == RoundIdByNow(t) + 1
    requires Series.Recorded(s, RoundIdByNow(now), pick).Some?
    requires !Has(s, EndPct(RoundIdByNow(t) as real))
    ensures var s1 := Series.Series(pick, s, GetVerb, t).store;
      var s2 := Series.Series(pick, s1, GetVerb, now).store;
      var k := EndPct(RoundIdByNow(t) as real);
      && Series.Series(pick, s1, GetVerb, now).reply.Ok?
      && k in s2.kv && s2.kv[k] == NumberText(Fin(ToFixed(Series.DrawnOutcome(pick, RoundIdByNow(t)), 0)))
  {
    var rt := RoundIdByNow(t);
    var s1 := Series.Series(pick, s, GetVerb, t).store;
    FirstPoll(pick, s, t);
    RecordedFrame(s, s1, rt + 1, pick);
    NextPollSucceeds(pick, s1, now);
    CommittedOutcome(pick, s1, now);
  }

  /** What a poll in round `rt` leaves for the first poll of round `rt + 1`:
      its own meta record, readable, and the next round's meta record and
      round `rt`'s outcome as they were. */
  lemma FirstPoll(pick: int -> real, s: Store, t: int)
    requires Series.Series(pick, s, GetVerb, t).reply.Ok?
    requires MetaAsWritten(pick, s, RoundIdByNow(t) + 1)
    ensures var s1 := Series.Series(pick, s, GetVerb, t).store;
      var rt := RoundIdByNow(t);
      && MetaAsWritten(pick, s1, rt + 1)
      && Series.Recorded(s1, rt, pick).Some?
      && Get(s1, SeriesMeta(rt + 1)) == Get(s, SeriesMeta(rt + 1))
      && Get(s1, EndPct(rt as real)) == Get(s, EndPct(rt as real))
  {
    PollRecordsMeta(pick, s, t);
  }

  /** A poll succeeds when the outcomes of its round and the previous one can
      both be read. */
  lemma NextPollSucceeds(pick: int -> real, s: Store, now: int)
    requires Series.Recorded(s, RoundIdByNow(now), pick).Some?
    requires Series.Recorded(s, RoundIdByNow(now) - 1, pick).Some?
    ensures Series.Series(pick, s, GetVerb, now).reply.Ok?
  {
  }

  /** The outcome a poll finds for a round depends only on that round's meta
      record. */
  lemma RecordedFrame(s: Store, s': Store, rid: int, pick: int -> real)
    requires Get(s, SeriesMeta(rid)) == Get(s', SeriesMeta(rid))
    ensures Series.Recorded(s, rid, pick) == Series.Recorded(s', rid, pick)
  {
  }
}

=== FILE: oracle.dfy ===
/** The outcome oracle of lib/game.js: a 32-bit FNV-1a hash of
    "<secret>:<startAt>" seeds a mulberry32 generator whose first draw picks a
    bucket and whose second draw places the outcome inside it. */
module Oracle {
  import opened Strings
  import Clock

  const FNV_OFFSET_BASIS: bv32 := 2166136261
  const FNV_PRIME: bv32 := 16777619

  /** One FNV-1a round: xor in a code unit, then multiply modulo 2^32 (`Math.imul`). */
  function FnvStep(h: bv32, unit: int): bv32
    requires 0 <= unit < 0x10000
  {
    (h ^ (unit as bv32)) * FNV_PRIME
  }

  ghost predicate CodeUnitsOnly(units: seq<int>)
  {
    forall i :: 0 <= i < |units| ==> 0 <= units[i] < 0x10000
  }

  /** FNV-1a continued from hash state `h` over `units`, first unit first. */
  function FnvFrom(h: bv32, units: seq<int>): bv32
    requires CodeUnitsOnly(units)
    decreases |units|
  {
    if units == [] then h else FnvFrom(FnvStep(h, units[0]), units[1..])
  }

  /** The 32-bit FNV-1a hash of a string's UTF-16 code units. */
  function Fnv1a(s: string): bv32
  {
    FnvFrom(FNV_OFFSET_BASIS, Utf16(s))
  }

  /** Hashing a concatenation continues from the hash of the first part. */
  lemma {:induction false} FnvFromConcat(h: bv32, a: seq<int>, b: seq<int>)
    requires CodeUnitsOnly(a) && CodeUnitsOnly(b)
    ensures CodeUnitsOnly(a + b)
    ensures FnvFrom(h, a + b) == FnvFrom(FnvFrom(h, a), b)
    decreases |a|
  {
    if a == [] {
      assert a + b == b;
    } else {
      assert (a + b)[0] == a[0];
      assert (a + b)[1..] == a[1..] + b;
      FnvFromConcat(FnvStep(h, a[0]), a[1..], b);
    }
  }

  /** `xfnv1a(str)`: the loop of lib/game.js, which computes FNV-1a. */
  method Xfnv1a(str: string) returns (h: bv32)
    ensures h == Fnv1a(str)
  {
    var units := Utf16(str);
    h := FNV_OFFSET_BASIS;
    var i := 0;
    while i < |units|
      invariant 0 <= i <= |units|
      invariant FnvFrom(h, units[i..]) == FnvFrom(FNV_OFFSET_BASIS, units)
    {
      assert units[i..][1..] == units[i + 1..];
      h := FnvStep(h, units[i]);
      i := i + 1;
    }
  }

  /** The published FNV-1a 32-bit test vectors for "" and "a". */
  lemma FnvShortVectors()
    ensures Fnv1a("") == 0x811c9dc5
    ensures Fnv1a("a") == 0xe40c292c
  {
    assert Utf16("a") == [97];
    assert FnvStep(FNV_OFFSET_BASIS, 97) == 0xe40c292c;
  }

  /** The published FNV-1a 32-bit test vector for "foobar". */
  lemma FnvFoobarVector()
    ensures Fnv1a("foobar") == 0xbf9cf968
  {
    assert Utf16("foobar") == [102, 111, 111, 98, 97, 114];
    var h1 := FnvStep(FNV_OFFSET_BASIS, 102);
    var h2 := FnvStep(h1, 111);
    var h3 := FnvStep(h2, 111);
    var h4 := FnvStep(h3, 98);
    var h5 := FnvStep(h4, 97);
    var h6 := FnvStep(h5, 114);
    assert h6 == 0xbf9cf968;
    FnvFromConcat(FNV_OFFSET_BASIS, [102, 111, 111], [98, 97, 114]);
    assert FnvFrom(FNV_OFFSET_BASIS, [102, 111, 111]) == h3;
    assert FnvFrom(h3, [98, 97, 114]) == h6;
  }

  const MULBERRY_STEP: bv32 := 0x6D2B79F5

  /** The state of a mulberry32 generator: its running 32-bit counter. */
  datatype Rng = Rng(a: bv32)

  /** The 32-bit word one call of the generator returns before scaling. */
  function MulberryWord(a: bv32): bv32
  {
    var t1 := (a ^ (a >> 15)) * (a | 1);
    var t2 := t1 ^ (t1 + (t1 ^ (t1 >> 7)) * (t1 | 61));
    t2 ^ (t2 >> 14)
  }

  /** One call of the `mulberry32` closure: the counter advances by 0x6D2B79F5
      (modulo 2^32, as every bit operation reads it) and the draw is the mixed
      word divided by 2^32, so it lies in [0, 1). */
  function Next(g: Rng): (r: (real, Rng))
    ensures 0.0 <= r.0 < 1.0
    ensures r.1 == Rng(g.a + MULBERRY_STEP)
  {
    var a := g.a + MULBERRY_STEP;
    var n := Unsigned(MulberryWord(a));
    assert n as real < 4294967296.0;
    (n as real / 4294967296.0, Rng(a))
  }

  /** The reference mulberry32 (Tommy Ettinger's C version) started from state
      0 returns 0x4434B462 and then 0x00159C37, pinning the bit mixing. */
  lemma MulberryVectors()
    ensures Next(Rng(0)).1 == Rng(0x6D2B79F5)
    ensures MulberryWord(Next(Rng(0)).1.a) == 0x4434B462
    ensures MulberryWord(Next(Next(Rng(0)).1).1.a) == 0x00159C37
  {
  }

  /** `w >>> 0`: a 32-bit word read as an unsigned number. */
  function Unsigned(w: bv32): (n: int)
    ensures 0 <= n < 4294967296
  {
    w as int
  }

  /** The share `u * d` of a span `d` that a draw `u` in [0, 1) selects. */
  function Part(u: real, d: real): (p: real)
    requires 0.0 <= u < 1.0 && 0.0 < d
    ensures 0.0 <= p < d
  {
    assert d - u * d == (1.0 - u) * d;
    assert (1.0 - u) * d > 0.0;
    u * d
  }

  /** A draw `u` in [0, 1) scaled to [min, max). */
  function Scale(u: real, min: real, max: real): (v: real)
    requires 0.0 <= u < 1.0 && min < max
    ensures min <= v < max
  {
    min + Part(u, max - min)
  }

  /** `rand(rng, min, max)`: the next draw scaled to [min, max). */
  function Rand(g: Rng, min: real, max: real): (r: (real, Rng))
    requires min < max
    ensures min <= r.0 < max
    ensures r.1 == Next(g).1
  {
    var n := Next(g);
    (Scale(n.0, min, max), n.1)
  }

  /** `rngForRound(startAt)`: the generator seeded with the hash of
      "<SECRET_SEED>:<startAt>". */
  function RngForRound(secret: string, startAt: int): Rng
  {
    Rng(Fnv1a(secret + ":" + DecimalText(startAt)))
  }

  /** The per-round seed is the secret's hash state continued over
      ":<startAt>"; by `DecimalRoundTrip` that text determines `startAt`. */
  lemma SeedContinuesSecret(secret: string, startAt: int)
    ensures RngForRound(secret, startAt).a
      == FnvFrom(FnvFrom(FNV_OFFSET_BASIS, Utf16(secret)), Utf16(":" + DecimalText(startAt)))
  {
    var tail := ":" + DecimalText(startAt);
    assert secret + ":" + DecimalText(startAt) == secret + tail;
    Utf16Concat(secret, tail);
    FnvFromConcat(FNV_OFFSET_BASIS, Utf16(secret), Utf16(tail));
  }

  /** The bucket draw of a generator: its first draw times 100. */
  function BucketDraw(g: Rng): real
  {
    Next(g).0 * 100.0
  }

  /** The bucket choice of `pickOutcomePctDeterministic`, given the first draw
      times 100 (`r`) and the generator after it (`g`): below 30 a rise in
      [0, 50), below 40 in [50, 100), below 45 in [100, 150), below 48 in
      [150, 200), below 97 a fall in (-100, 0], and otherwise exactly 0. Every
      bucket lies inside the chart's range [MIN_Y, MAX_Y] = [-100, 200]. */
  function OutcomeOf(r: real, g: Rng): (pct: real)
    ensures r < 30.0 ==> 0.0 <= pct < 50.0
    ensures 30.0 <= r < 40.0 ==> 50.0 <= pct < 100.0
    ensures 40.0 <= r < 45.0 ==> 100.0 <= pct < 150.0
    ensures 45.0 <= r < 48.0 ==> 150.0 <= pct < 200.0
    ensures 48.0 <= r < 97.0 ==> -100.0 < pct <= 0.0
    ensures 97.0 <= r ==> pct == 0.0
    ensures Clock.MIN_Y as real <= pct <= Clock.MAX_Y as real
  {
    if r < 30.0 then Rand(g, 0.0, 50.0).0
    else if r < 40.0 then Rand(g, 50.0, 100.0).0
    else if r < 45.0 then Rand(g, 100.0, 150.0).0
    else if r < 48.0 then Rand(g, 150.0, 200.0).0
    else if r < 97.0 then -Rand(g, 0.0, 100.0).0
    else 0.0
  }

  /** `pickOutcomePctDeterministic` once the generator is seeded: the first
      draw picks the bucket and `rand` on the advanced generator places the
      outcome inside it. */
  function OutcomeFrom(g: Rng): (pct: real)
    ensures Clock.MIN_Y as real <= pct <= Clock.MAX_Y as real
  {
    OutcomeOf(BucketDraw(g), Next(g).1)
  }

  /** `pickOutcomePctDeterministic(startAt)`: the outcome drawn by the
      generator of round `startAt`, in [-100, 200]. */
  function PickOutcomePct(secret: string, startAt: int): (pct: real)
    ensures Clock.MIN_Y as real <= pct <= Clock.MAX_Y as real
  {
    OutcomeFrom(RngForRound(secret, startAt))
  }
}

=== FILE: series.dfy ===
/** The chart feed (api/series.js): it fixes the current round's outcome once
    under "round:meta:<rid>" and is the one writer of the committed outcome
    "round:endPct:<rid>" that settlement reads, together with the
    "round:history" list that the state view shows.

    `pickOutcomePctForRound(rid)`, which lib/game.js does not define, is a
    parameter `pick` of the handler; `AssumedPick` is the natural reading, the
    draw of lib/game.js for the round's start time,
    `pickOutcomePctDeterministic(roundStartAt(rid))`. The chart points are not
    part of this model. */
module Series {
  import opened Js
  import opened Clock
  import opened KeyValue
  import opened Http
  import Oracle

  /** The answer's round fields; `betMs`, `playMs` and `roundMs` are the
      constants of the clock. */
  datatype View = View(serverNow: int, roundId: int)

  /** `pickOutcomePctForRound` read as lib/game.js's draw for the round's
      start time. */
  function AssumedPick(secret: string): int -> real
  {
    rid => Oracle.PickOutcomePct(secret, RoundStartAt(rid))
  }

  /** `Number(pickOutcomePctForRound(rid).toFixed(6))` */
  function DrawnOutcome(pick: int -> real, rid: int): real
  {
    ToFixed(pick(rid), 6)
  }

  /** With the assumed oracle every drawn outcome lies in [MIN_Y, MAX_Y]. */
  lemma AssumedDrawInRange(secret: string, rid: int)
    ensures MIN_Y as real <= DrawnOutcome(AssumedPick(secret), rid) <= MAX_Y as real
  {
    var p := Oracle.PickOutcomePct(secret, RoundStartAt(rid));
    assert AssumedPick(secret)(rid) == p;
    ToFixedWithin(p, 6, MIN_Y, MAX_Y);
  }

  /** `JSON.stringify({roundId, startAt, endAt, finishAt, finalPctAbs})` */
  function MetaRecord(rid: int, finalPctAbs: real): (t: Text)
    ensures t.Chars? && t.json.Some? && Field(t.json.value, "finalPctAbs") == Some(JNum(Fin(finalPctAbs)))
  {
    JsonText(map[
      "roundId" := JNum(Fin(rid as real)),
      "startAt" := JNum(Fin(RoundStartAt(rid) as real)),
      "endAt" := JNum(Fin(BetsCloseAt(rid) as real)),
      "finishAt" := JNum(Fin(RoundEndAt(rid) as real)),
      "finalPctAbs" := JNum(Fin(finalPctAbs))])
  }

  /** The memoised outcome of round `rid`: read back from its meta record when
      one is stored, otherwise the `drawn` outcome, which is then stored. None
      where reading throws (the record does not parse, or parses to `null`). */
  function Memo(s: Store, rid: int, drawn: real): (r: (Store, Option<Num>))
    ensures Has(s, SeriesMeta(rid)) ==> r.0 == s
    ensures Has(s, SeriesMeta(rid)) ==>
      var meta := s.kv[SeriesMeta(rid)].json;
      && (r.1.Some? <==> meta.Some? && !meta.value.Null?)
      && (r.1.Some? ==> r.1.value == ToNumber(Field(meta.value, "finalPctAbs")))
    ensures !Has(s, SeriesMeta(rid)) ==>
      && r.1 == Some(Fin(drawn))
      && r.0 == Set(s, SeriesMeta(rid), MetaRecord(rid, drawn))
    ensures Has(r.0, SeriesMeta(rid))
    ensures r.0.hashes == s.hashes && r.0.roundHistory == s.roundHistory && r.0.gameHistory == s.gameHistory
    ensures forall k: Key :: k != SeriesMeta(rid) ==> Get(r.0, k) == Get(s, k)
  {
    if Has(s, SeriesMeta(rid)) then
      var meta := s.kv[SeriesMeta(rid)].json;
      if meta.None? || meta.value.Null? then (s, None)
      else (s, Some(ToNumber(Field(meta.value, "finalPctAbs"))))
    else
      (Set(s, SeriesMeta(rid), MetaRecord(rid, drawn)), Some(Fin(drawn)))
  }

  /** Every caller sees the same outcome for a round: after the first call the
      record is only read, and reads back the value the first call used,
      whatever a later draw would give. */
  lemma MemoStable(s: Store, rid: int, drawn: real, redrawn: real)
    ensures var (s1, f1) := Memo(s, rid, drawn);
      Memo(s1, rid, redrawn) == (s1, f1)
  {
  }

  /** `JSON.stringify({roundId: rid, pct, ts: now})`, one "round:history"
      entry; a NaN pct is written as null. */
  function HistoryEntry(rid: int, pct: Num, now: int): (t: Text)
    ensures t.Chars? && t.json.Some? && t.json.value.JObj?
  {
    JsonText(map[
      "roundId" := JNum(Fin(rid as real)),
      "pct" := JsonOfNum(pct),
      "ts" := JNum(Fin(now as real))])
  }

  /** The one-time commit of round `rid`'s outcome: unless "round:endPct:<rid>"
      already holds a non-empty value, store the outcome rounded to a whole
      number there, prepend the same to "round:history" and keep its newest 18
      entries. */
  function Commit(s: Store, rid: int, finalPctAbs: Num, now: int): (r: Store)
    ensures Has(s, EndPct(rid as real)) ==> r == s
    ensures !Has(s, EndPct(rid as real)) ==>
      && r.kv == s.kv[EndPct(rid as real) := NumberText(FixedNum(finalPctAbs, 0))]
      && r.roundHistory == Take([HistoryEntry(rid, FixedNum(finalPctAbs, 0), now)] + s.roundHistory, 18)
      && r.hashes == s.hashes && r.gameHistory == s.gameHistory
    ensures Has(r, EndPct(rid as real))
    ensures |s.roundHistory| <= 18 ==> |r.roundHistory| <= 18
    ensures r.hashes == s.hashes && r.gameHistory == s.gameHistory
    ensures forall k: Key :: k != EndPct(rid as real) ==> Get(r, k) == Get(s, k)
  {
    if Has(s, EndPct(rid as real)) then s
    else
      var pct := FixedNum(finalPctAbs, 0);
      var s1 := Set(s, EndPct(rid as real), NumberText(pct));
      s1.(roundHistory := Take([HistoryEntry(rid, pct, now)] + s.roundHistory, 18))
  }

  /** A round is committed once: a second commit, with whatever outcome and
      at whatever time, changes nothing. */
  lemma CommitOnce(s: Store, rid: int, f: Num, g: Num, now: int, later: int)
    ensures Commit(Commit(s, rid, f, now), rid, g, later) == Commit(s, rid, f, now)
  {
  }

  /** The committed outcome and the history entry carry the same whole
      number. */
  lemma CommitRounds(s: Store, rid: int, f: real, now: int)
    requires !Has(s, EndPct(rid as real))
    ensures var r := Commit(s, rid, Fin(f), now);
      var p := ToFixed(f, 0);
      && r.kv[EndPct(rid as real)].number == Fin(p)
      && p == p.Floor as real
      && r.roundHistory[0] == HistoryEntry(rid, Fin(p), now)
      && Field(r.roundHistory[0].json.value, "pct") == Some(JNum(Fin(p)))
  {
    ToFixedZeroIsWhole(f);
  }

  /** The commit guard of api/series.js, `now >= roundEndAt(rid)` for
      `rid = roundIdByNow(now)`, never holds: `now` always lies before the end
      of its own round. */
  lemma GuardNeverHolds(now: int)
    ensures now < RoundEndAt(RoundIdByNow(now))
  {
    CurrentRound(now, RoundIdByNow(now));
  }

  /** api/series.js as written: memoise the current round's outcome, and
      commit it once the current round is over, a condition that never holds. */
  function SeriesAsWritten(pick: int -> real, s: Store, verb: Verb, now: int): (r: Step<View>)
    ensures r.reply.Fail? ==> r.store == s
    ensures r.reply.Ok? ==> r.reply.value == View(now, RoundIdByNow(now))
  {
    if verb != GetVerb then Step(s, Fail(MethodNotAllowed))
    else
      var rid := RoundIdByNow(now);
      var (s1, f) := Memo(s, rid, DrawnOutcome(pick, rid));
      if f.None? then Step(s, Fail(ServerError("series_error")))
      else
        var finalPctAbs := f.value;
        var s2 := if now >= RoundEndAt(rid) then Commit(s1, rid, finalPctAbs, now) else s1;
        Step(s2, Ok(View(now, rid)))
  }

  /** As written, the handler never commits an outcome and never writes the
      history: besides the meta record it changes nothing. */
  lemma AsWrittenNeverCommits(pick: int -> real, s: Store, verb: Verb, now: int)
    ensures var s' := SeriesAsWritten(pick, s, verb, now).store;
      && s'.roundHistory == s.roundHistory
      && (forall rid :: Get(s', EndPct(rid)) == Get(s, EndPct(rid)))
      && (forall k: Key :: !k.SeriesMeta? ==> Get(s', k) == Get(s, k))
  {
    GuardNeverHolds(now);
  }

  /** The outcome of round `rid` as the corrected handler finds it in `s`: read
      back from its meta record when one is stored, the draw otherwise; None
      where the record does not parse or parses to `null`. */
  function Recorded(s: Store, rid: int, pick: int -> real): (r: Option<Num>)
    ensures !Has(s, SeriesMeta(rid)) ==> r == Some(Fin(DrawnOutcome(pick, rid)))
    ensures Has(s, SeriesMeta(rid)) && s.kv[SeriesMeta(rid)] == MetaRecord(rid, DrawnOutcome(pick, rid)) ==>
      r == Some(Fin(DrawnOutcome(pick, rid)))
  {
    Memo(s, rid, DrawnOutcome(pick, rid)).1
  }

  /** api/series.js committing the round that has finished. It memoises the
      current round's outcome as written, then commits the previous round,
      `rid - 1`, which is over at every `now` of round `rid`, using that
      round's memoised outcome (drawn now if nobody asked during the round).
      When that outcome cannot be read the handler fails, but the current
      round's meta record, already written, stays. */
  function Series(pick: int -> real, s: Store, verb: Verb, now: int): (r: Step<View>)
    ensures r.reply == Fail(MethodNotAllowed) <==> verb != GetVerb
    ensures verb != GetVerb ==> r.store == s
    ensures r.reply.Fail? ==>
      && r.store.roundHistory == s.roundHistory
      && (forall k: Key :: k != SeriesMeta(RoundIdByNow(now)) ==> Get(r.store, k) == Get(s, k))
    ensures r.reply.Ok? ==> r.reply.value == View(now, RoundIdByNow(now))
    ensures r.reply.Ok? ==> Has(r.store, EndPct((RoundIdByNow(now) - 1) as real))
    ensures r.reply.Ok? && |s.roundHistory| <= 18 ==> |r.store.roundHistory| <= 18
    ensures verb == GetVerb ==>
      (r.reply.Ok? <==> Recorded(s, RoundIdByNow(now), pick).Some? && Recorded(s, RoundIdByNow(now) - 1, pick).Some?)
    ensures r.reply.Ok? && !Has(s, EndPct((RoundIdByNow(now) - 1) as real)) ==>
      var rid := RoundIdByNow(now);
      var p := FixedNum(Recorded(s, rid - 1, pick).value, 0);
      && Get(r.store, EndPct((rid - 1) as real)) == Some(NumberText(p))
      && r.store.roundHistory == Take([HistoryEntry(rid - 1, p, now)] + s.roundHistory, 18)
    ensures Has(s, EndPct((RoundIdByNow(now) - 1) as real)) ==>
      && Get(r.store, EndPct((RoundIdByNow(now) - 1) as real)) == Get(s, EndPct((RoundIdByNow(now) - 1) as real))
      && r.store.roundHistory == s.roundHistory
    ensures r.store.hashes == s.hashes && r.store.gameHistory == s.gameHistory
    ensures forall k: Key ::
      k != SeriesMeta(RoundIdByNow(now)) && k != SeriesMeta(RoundIdByNow(now) - 1) && k != EndPct((RoundIdByNow(now) - 1) as real)
      ==> Get(r.store, k) == Get(s, k)
  {
    if verb != GetVerb then Step(s, Fail(MethodNotAllowed))
    else
      var rid := RoundIdByNow(now);
      var (s1, f) := Memo(s, rid, DrawnOutcome(pick, rid));
      if f.None? then Step(s, Fail(ServerError("series_error")))
      else
        assert Get(s1, SeriesMeta(rid - 1)) == Get(s, SeriesMeta(rid - 1));
        var (s2, g) := Memo(s1, rid - 1, DrawnOutcome(pick, rid - 1));
        if g.None? then Step(s1, Fail(ServerError("series_error")))
        else
          RoundsAbut(rid - 1);
          assert now >= RoundEndAt(rid - 1);
          Step(Commit(s2, rid - 1, g.value, now), Ok(View(now, rid)))
  }

  /** The corrected handler commits a finished round once: called again in the
      same round or later, it leaves that round's commit as it was. */
  lemma SeriesCommitsOnce(pick: int -> real, s: Store, now: int, later: int)
    requires Series(pick, s, GetVerb, now).reply.Ok?
    requires RoundIdByNow(later) == RoundIdByNow(now)
    ensures var s1 := Series(pick, s, GetVerb, now).store;
      var s2 := Series(pick, s1, GetVerb, later).store;
      && Get(s2, EndPct((RoundIdByNow(now) - 1) as real)) == Get(s1, EndPct((RoundIdByNow(now) - 1) as real))
      && s2.roundHistory == s1.roundHistory
  {
    var k := EndPct((RoundIdByNow(now) - 1) as real);
    var s1 := Series(pick, s, GetVerb, now).store;
    CommitsPrevious(pick, s, now);
    assert Has(s1, k);
    KeepsCommitted(pick, s1, later);
    var s2 := Series(pick, s1, GetVerb, later).store;
    assert Get(s2, k) == Get(s1, k);
  }

  /** A successful call leaves the previous round committed. */
  lemma CommitsPrevious(pick: int -> real, s: Store, now: int)
    requires Series(pick, s, GetVerb, now).reply.Ok?
    ensures Has(Series(pick, s, GetVerb, now).store, EndPct((RoundIdByNow(now) - 1) as real))
  {
  }

  /** Once the previous round is committed, a call leaves that commit and the
      history alone, whatever it answers. */
  lemma KeepsCommitted(pick: int -> real, s: Store, now: int)
    requires Has(s, EndPct((RoundIdByNow(now) - 1) as real))
    ensures var r := Series(pick, s, GetVerb, now).store;
      && Get(r, EndPct((RoundIdByNow(now) - 1) as real)) == Get(s, EndPct((RoundIdByNow(now) - 1) as real))
      && r.roundHistory == s.roundHistory
  {
  }
}

=== FILE: settle.dfy ===
/** Settling a bet (api/bet_settle.js): once the bet's round is over, pay
    `floor(stake * (1 + m))` (at least 0) onto the balance, where `m` is the
    committed outcome as a fraction, signed by the bet's side, and mark the bet
    settled so that it is paid once. */
module Settlement {
  import opened Js
  import opened Clock
  import opened KeyValue
  import opened Http
  import Bets

  /** The three ways a settlement request succeeds. `profitNano` is
      `returnNano - stakeNano`, NaN when the stored stake is not a number. */
  datatype Outcome =
    | Pending
    | AlreadySettled
    | Paid(pct: real, long: bool, returnNano: int, profitNano: Num)

  /** `Math.floor(stake * (1 + m))`, replaced by 0 when it is negative or
      not finite. */
  function ReturnNano(stake: Num, m: real): (r: int)
    ensures r >= 0
    ensures !stake.Fin? ==> r == 0
    ensures stake.Fin? && stake.x * (1.0 + m) >= 0.0 ==>
      r as real <= stake.x * (1.0 + m) < r as real + 1.0
    ensures stake.Fin? && stake.x * (1.0 + m) < 0.0 ==> r == 0
  {
    if stake.Fin? then
      var y := (stake.x * (1.0 + m)).Floor;
      if y < 0 then 0 else y
    else 0
  }

  /** The signed fraction `m` of an outcome `pct` for a side. */
  function Multiplier(long: bool, pct: real): real
  {
    (if long then pct else -pct) / 100.0
  }

  /** With the outcome clamped to [-100, 200] and a whole, non-negative stake,
      a long bet returns at most three times the stake and a short bet at most
      twice, and a flat round returns the stake itself. */
  lemma PayoutBounds(stake: int, long: bool, pct: real)
    requires stake >= 0
    requires MIN_Y as real <= pct <= MAX_Y as real
    ensures long ==> ReturnNano(Fin(stake as real), Multiplier(long, pct)) <= 3 * stake
    ensures !long ==> ReturnNano(Fin(stake as real), Multiplier(long, pct)) <= 2 * stake
    ensures pct == 0.0 ==> ReturnNano(Fin(stake as real), Multiplier(long, pct)) == stake
  {
    ScaledFloorAtMost(stake, 1.0 + Multiplier(long, pct), if long then 3 else 2);
  }

  /** The checks api/bet_settle.js makes before it looks at the clock: method,
      address present, address parses, round is a finite number. */
  function SettleVerdict(cfg: Config, req: Request): (r: Option<Failure>)
    ensures r.None? <==> req.verb == PostVerb && Bets.User(cfg, req).Some? && ToNumber(Arg(req, "roundId")).Fin?
    ensures r == Some(MethodNotAllowed) <==> req.verb != PostVerb
    ensures r == Some(NoAddress) <==> req.verb == PostVerb && !Truthy(Arg(req, "address"))
    ensures r == Some(BadAddress) <==>
      req.verb == PostVerb && Truthy(Arg(req, "address")) && Bets.User(cfg, req).None?
    ensures r == Some(BadRound) <==>
      req.verb == PostVerb && Bets.User(cfg, req).Some? && !ToNumber(Arg(req, "roundId")).Fin?
  {
    if req.verb != PostVerb then Some(MethodNotAllowed)
    else if !Truthy(Arg(req, "address")) then Some(NoAddress)
    else if Bets.User(cfg, req).None? then Some(BadAddress)
    else if !ToNumber(Arg(req, "roundId")).Fin? then Some(BadRound)
    else None
  }

  /** The round a validated settlement request names; any finite number. */
  function Rid(req: Request): real
    requires ToNumber(Arg(req, "roundId")).Fin?
  {
    ToNumber(Arg(req, "roundId")).x
  }

  /** A payout `o` is the one the stored data call for: the request names a
      stored bet whose record parses, `o.pct` is the stored outcome clamped to
      [MIN_Y, MAX_Y], `o.long` is whether the bet's side is "long", and
      `o.returnNano` is `floor(stake * (1 + m))` for the bet's stake and the
      signed fraction `m` of that outcome. */
  predicate PaidFromStore(cfg: Config, s: Store, req: Request, o: Outcome)
    requires o.Paid?
  {
    && SettleVerdict(cfg, req).None?
    && var key := Bet(Rid(req), Bets.User(cfg, req).value);
    && Has(s, key) && s.kv[key].json.Some?
    && var bet := s.kv[key].json.value;
    && NumberOr0(s, EndPct(Rid(req))).Fin?
    && o.pct == Clamp(NumberOr0(s, EndPct(Rid(req))).x, MIN_Y as real, MAX_Y as real)
    && o.long == StringIs(Field(bet, "side"), "long")
    && o.returnNano == ReturnNano(ToNumber(Field(bet, "amountNano")), Multiplier(o.long, o.pct))
  }

  /** api/bet_settle.js, with one switch. `strict == false` is the code as
      written: the outcome is `Number(await redis.get("round:endPct:<rid>"))`,
      and an absent key reads as `Number(null) == 0`. `strict == true` treats
      an absent (or empty) outcome as not yet committed, the way a non-numeric
      one already is. A bet record that parses to `null` fails only when its
      side is read, after the outcome, so it is pending until one is stored. */
  function SettleStep(strict: bool, cfg: Config, s: Store, req: Request, now: int): (r: Step<Outcome>)
    ensures SettleVerdict(cfg, req).Some? ==> r == Step(s, Fail(SettleVerdict(cfg, req).value))
    ensures r.reply.Fail? || r.reply == Ok(Pending) || r.reply == Ok(AlreadySettled) ==> r.store == s
    ensures r.reply.Ok? && r.reply.value.Paid? ==>
      MIN_Y as real <= r.reply.value.pct <= MAX_Y as real && r.reply.value.returnNano >= 0
    ensures r.reply.Ok? && r.reply.value.Paid? ==> PaidFromStore(cfg, s, req, r.reply.value)
    ensures SettleVerdict(cfg, req).None? && RoundEndAtOf(Rid(req)) <= now as real ==>
      var user := Bets.User(cfg, req).value;
      Has(s, Bet(Rid(req), user)) && !Has(s, Settled(Rid(req), user)) && s.kv[Bet(Rid(req), user)].json.None?
      ==> r == Step(s, Fail(ServerError("bet_settle_error")))
  {
    match SettleVerdict(cfg, req)
    case Some(f) => Step(s, Fail(f))
    case None =>
      var rid := Rid(req);
      var user := Bets.User(cfg, req).value;
      if (now as real) < RoundEndAtOf(rid) then Step(s, Ok(Pending))
      else if !Has(s, Bet(rid, user)) then Step(s, Fail(NoBet))
      else if Has(s, Settled(rid, user)) then Step(s, Ok(AlreadySettled))
      else
        var bet := s.kv[Bet(rid, user)].json;
        if bet.None? then Step(s, Fail(ServerError("bet_settle_error")))
        else if strict && !Has(s, EndPct(rid)) then Step(s, Ok(Pending))
        else
          var result := NumberOr0(s, EndPct(rid));
          if !result.Fin? then Step(s, Ok(Pending))
          else if bet.value.Null? then Step(s, Fail(ServerError("bet_settle_error")))
          else
            var pct := Clamp(result.x, MIN_Y as real, MAX_Y as real);
            var long := StringIs(Field(bet.value, "side"), "long");
            var stake := ToNumber(Field(bet.value, "amountNano"));
            var ret := ReturnNano(stake, Multiplier(long, pct));
            var s1 := Set(s, Bal(user), NumberText(Fin(Balance(s, user) + ret as real)));
            Step(Set(s1, Settled(rid, user), Marker), Ok(Paid(pct, long, ret, Sub(Fin(ret as real), stake))))
  }

  /** api/bet_settle.js as written. */
  function SettleAsWritten(cfg: Config, s: Store, req: Request, now: int): (r: Step<Outcome>)
    ensures r.reply.Fail? ==> r.store == s
    ensures r.reply.Ok? && r.reply.value.Paid? ==> PaidFromStore(cfg, s, req, r.reply.value)
  {
    SettleStep(false, cfg, s, req, now)
  }

  /** api/bet_settle.js with an uncommitted outcome answered as pending. */
  function Settle(cfg: Config, s: Store, req: Request, now: int): (r: Step<Outcome>)
    ensures r.reply.Fail? ==> r.store == s
    ensures r.reply.Ok? && r.reply.value.Paid? ==> PaidFromStore(cfg, s, req, r.reply.value)
    ensures r.reply.Ok? && r.reply.value.Paid? ==>
      ToNumber(Arg(req, "roundId")).Fin? && Has(s, EndPct(Rid(req))) && NumberOr0(s, EndPct(Rid(req))).Fin?
  {
    SettleStep(true, cfg, s, req, now)
  }

  /** Before the round's end a valid request is answered `pending` whatever the
      store holds: the clock check comes before any look at the bet. */
  lemma PendingBeforeEnd(strict: bool, cfg: Config, s: Store, other: Store, req: Request, now: int)
    requires SettleVerdict(cfg, req).None?
    requires (now as real) < RoundEndAtOf(Rid(req))
    ensures SettleStep(strict, cfg, s, req, now) == Step(s, Ok(Pending))
    ensures SettleStep(strict, cfg, other, req, now).reply == SettleStep(strict, cfg, s, req, now).reply
  {
  }

  /** After the round's end the bet is looked up before anything else: the
      answer is `no_bet` exactly when no bet is stored, and a stored bet with
      its settled marker set is answered `already_settled` whatever the
      outcome or the record holds. */
  lemma SettleOrderAfterEnd(strict: bool, cfg: Config, s: Store, req: Request, now: int)
    requires SettleVerdict(cfg, req).None?
    requires RoundEndAtOf(Rid(req)) <= now as real
    ensures var r := SettleStep(strict, cfg, s, req, now);
      var user := Bets.User(cfg, req).value;
      && (r.reply == Fail(NoBet) <==> !Has(s, Bet(Rid(req), user)))
      && (Has(s, Bet(Rid(req), user)) && Has(s, Settled(Rid(req), user)) ==> r == Step(s, Ok(AlreadySettled)))
  {
  }

  /** A settlement credits the balance with exactly the payout, sets the
      settled marker, keeps the bet, and reports the profit as payout minus
      stake; nothing else changes. */
  lemma SettleCredits(strict: bool, cfg: Config, s: Store, req: Request, now: int)
    requires SettleStep(strict, cfg, s, req, now).reply.Ok?
    requires SettleStep(strict, cfg, s, req, now).reply.value.Paid?
    ensures var r := SettleStep(strict, cfg, s, req, now);
      var o := r.reply.value;
      var user := Bets.User(cfg, req).value;
      var rid := Rid(req);
      && Balance(r.store, user) == Balance(s, user) + o.returnNano as real
      && Has(r.store, Settled(rid, user))
      && Get(r.store, Bet(rid, user)) == Get(s, Bet(rid, user))
      && PaidFromStore(cfg, s, req, o)
      && o.profitNano == Sub(Fin(o.returnNano as real), ToNumber(Field(s.kv[Bet(rid, user)].json.value, "amountNano")))
      && (forall k :: k != Bal(user) && k != Settled(rid, user) ==> Get(r.store, k) == Get(s, k))
  {
    var user := Bets.User(cfg, req).value;
    SetBalanceReads(s, user, Balance(s, user) + SettleStep(strict, cfg, s, req, now).reply.value.returnNano as real);
  }

  /** Settling is idempotent: once a bet is settled, every later request for
      it is answered `already_settled` and changes nothing, so a bet is paid
      at most once. */
  lemma SettleOnce(strict: bool, cfg: Config, s: Store, req: Request, now: int, later: int)
    requires SettleStep(strict, cfg, s, req, now).reply.Ok?
    requires SettleStep(strict, cfg, s, req, now).reply.value.Paid?
    requires now <= later
    ensures var s1 := SettleStep(strict, cfg, s, req, now).store;
      SettleStep(strict, cfg, s1, req, later) == Step(s1, Ok(AlreadySettled))
  {
    SettleCredits(strict, cfg, s, req, now);
  }

  /** A valid request, after its round's end, for an unsettled bet whose
      record parses: the point where the handler reads the committed
      outcome. */
  predicate ReadsOutcome(cfg: Config, s: Store, req: Request, now: int)
  {
    && SettleVerdict(cfg, req).None?
    && RoundEndAtOf(Rid(req)) <= now as real
    && var key := Bet(Rid(req), Bets.User(cfg, req).value);
    && Has(s, key)
    && !Has(s, Settled(Rid(req), Bets.User(cfg, req).value))
    && s.kv[key].json.Some?
  }

  /** Where the handler reads the outcome of a bet whose record is not `null`,
      the bet is paid exactly when the outcome is a number, and, corrected,
      when it has been committed at all. */
  lemma SettlePaysIff(strict: bool, cfg: Config, s: Store, req: Request, now: int)
    requires ReadsOutcome(cfg, s, req, now)
    requires !s.kv[Bet(Rid(req), Bets.User(cfg, req).value)].json.value.Null?
    ensures var r := SettleStep(strict, cfg, s, req, now).reply;
      r.Ok? && r.value.Paid? <==> NumberOr0(s, EndPct(Rid(req))).Fin? && (strict ==> Has(s, EndPct(Rid(req))))
  {
  }

  /** An outcome that is present but not a number leaves the bet pending and
      the store untouched, in both versions. */
  lemma NonNumericOutcomePending(strict: bool, cfg: Config, s: Store, req: Request, now: int)
    requires ReadsOutcome(cfg, s, req, now)
    requires Has(s, EndPct(Rid(req))) && !s.kv[EndPct(Rid(req))].number.Fin?
    ensures SettleStep(strict, cfg, s, req, now) == Step(s, Ok(Pending))
  {
  }

  /** A bet record that parses to `null` throws when its side is read, which
      happens only once a numeric outcome is there: until then the answer is
      `pending`, afterwards the handler's 500, and the store is untouched. */
  lemma NullRecordFailsLate(strict: bool, cfg: Config, s: Store, req: Request, now: int)
    requires ReadsOutcome(cfg, s, req, now)
    requires s.kv[Bet(Rid(req), Bets.User(cfg, req).value)].json.value.Null?
    ensures var r := SettleStep(strict, cfg, s, req, now);
      && r.reply == (if NumberOr0(s, EndPct(Rid(req))).Fin? && (Has(s, EndPct(Rid(req))) || !strict)
                     then Fail(ServerError("bet_settle_error")) else Ok(Pending))
      && r.store == s
  {
  }

  /** As written, a round whose outcome was never committed settles at 0%:
      `Number(null)` is 0, so the bet is paid back its stake. */
  lemma AbsentOutcomeSettlesAtZero(cfg: Config, s: Store, req: Request, now: int)
    requires ReadsOutcome(cfg, s, req, now)
    requires !s.kv[Bet(Rid(req), Bets.User(cfg, req).value)].json.value.Null?
    requires EndPct(Rid(req)) !in s.kv
    ensures var r := SettleAsWritten(cfg, s, req, now);
      r.reply.Ok? && r.reply.value.Paid? && r.reply.value.pct == 0.0
  {
  }

  /** Corrected, the same request is answered `pending` and changes nothing,
      so the bet waits for the outcome the series handler commits. */
  lemma AbsentOutcomeStaysPending(cfg: Config, s: Store, req: Request, now: int)
    requires ReadsOutcome(cfg, s, req, now)
    requires EndPct(Rid(req)) !in s.kv
    ensures Settle(cfg, s, req, now) == Step(s, Ok(Pending))
  {
  }

  /** A concrete case: a long bet of 1000 nano-units on round 1, settled at
      t = 40000 ms (round 1 ends at 38000 ms) before any outcome is stored. As
      written it is paid 1000 at 0%; corrected it stays pending. */
  lemma AbsentOutcomeExample()
    ensures var cfg := Config(t => Some(t), "seed");
      var user := "UQ";
      var req := Request(PostVerb, Some(JObj(map["address" := JStr(user, NaN), "roundId" := JNum(Fin(1.0))])));
      var s := Store(map[Bet(1.0, user) := Bets.BetRecord(1, user, "long", 1000, 19500)], map[], [], []);
      && SettleAsWritten(cfg, s, req, 40000).reply == Ok(Paid(0.0, true, 1000, Fin(0.0)))
      && Settle(cfg, s, req, 40000).reply == Ok(Pending)
  {
    var cfg := Config(t => Some(t), "seed");
    var user := "UQ";
    var req := Request(PostVerb, Some(JObj(map["address" := JStr(user, NaN), "roundId" := JNum(Fin(1.0))])));
    var s := Store(map[Bet(1.0, user) := Bets.BetRecord(1, user, "long", 1000, 19500)], map[], [], []);
    assert Arg(req, "address") == Some(JStr(user, NaN));
    assert Bets.User(cfg, req) == Some(user);
    assert Rid(req) == 1.0;
    assert Field(s.kv[Bet(1.0, user)].json.value, "side") == Some(JStr("long", NaN));
    assert ReturnNano(Fin(1000.0), Multiplier(true, 0.0)) == 1000;
  }
}

=== FILE: store.dfy ===
/** The Redis database the handlers share, as a value.

    Each key family the handlers use is a constructor of `Key`; the families
    have distinct textual prefixes (`bal:`, `bet:`, `settled:`, `dep:`,
    `round:endPct:`, `round:meta:`, `round:<id>:historyPushed`), so distinct
    constructors never name the same Redis key. The two lists and the per-round
    hashes of lib/game.js live beside the string keys. Expiry times are not
    modelled: a key, once written, stays until it is deleted. */
module KeyValue {
  import opened Js

  datatype Key =
    | Bal(user: string)                    // "bal:<user>": the balance in nano-units
    | Bet(round: real, user: string)       // "bet:<rid>:<user>": the live bet as JSON
    | Settled(round: real, user: string)   // "settled:<rid>:<user>": the settlement marker
    | Dep(comment: Json)                   // "dep:<comment>": the deposit dedup marker
    | EndPct(round: real)                  // "round:endPct:<rid>": the committed outcome
    | SeriesMeta(rid: int)                 // "round:meta:<rid>": the memoised outcome as JSON
    | HistoryPushed(roundId: int)          // "round:<roundId>:historyPushed": lib/game.js's marker

  /** One "<roundId>:<finalPct>" entry of the "game:history" list, kept as its
      two parts. */
  datatype GameEntry = GameEntry(roundId: int, finalPct: Num)

  /** The whole database: the string keys, the "round:<startAt>:meta" hashes of
      lib/game.js keyed by `startAt`, the "round:history" list written by
      api/series.js and the "game:history" list written by lib/game.js, both
      newest first. */
  datatype Store = Store(
    kv: map<Key, Text>,
    hashes: map<int, map<string, Text>>,
    roundHistory: seq<Text>,
    gameHistory: seq<GameEntry>)

  /** `redis.get(k)`: None is `null`. */
  function Get(s: Store, k: Key): (r: Option<Text>)
    ensures r.Some? <==> k in s.kv
  {
    if k in s.kv then Some(s.kv[k]) else None
  }

  /** The value `redis.get(k)` resolves to is truthy: present and non-empty. */
  predicate Has(s: Store, k: Key)
  {
    k in s.kv && s.kv[k].Chars?
  }

  /** `Number(await redis.get(k) || "0")`, which is also what `Number(await
      redis.get(k))` gives, because `Number(null)` and `Number("")` are 0. */
  function NumberOr0(s: Store, k: Key): (n: Num)
    ensures !Has(s, k) ==> n == Fin(0.0)
  {
    if Has(s, k) then s.kv[k].number else Fin(0.0)
  }

  /** A user's balance as every handler reads it: a missing, empty or
      non-numeric entry counts as 0. */
  function Balance(s: Store, user: string): real
  {
    NumberOr0(s, Bal(user)).FiniteOr0()
  }

  /** `redis.set(k, t)` */
  function Set(s: Store, k: Key, t: Text): (r: Store)
    ensures r.kv == s.kv[k := t]
    ensures r.hashes == s.hashes && r.roundHistory == s.roundHistory && r.gameHistory == s.gameHistory
  {
    s.(kv := s.kv[k := t])
  }

  /** `redis.del(k)` */
  function Del(s: Store, k: Key): (r: Store)
    ensures k !in r.kv
    ensures forall k' :: k' != k ==> Get(r, k') == Get(s, k')
    ensures r.hashes == s.hashes && r.roundHistory == s.roundHistory && r.gameHistory == s.gameHistory
  {
    s.(kv := s.kv - {k})
  }

  /** Writing a number to a balance key and reading it back gives the number. */
  lemma SetBalanceReads(s: Store, user: string, x: real)
    ensures Balance(Set(s, Bal(user), NumberText(Fin(x))), user) == x
    ensures forall u :: u != user ==> Balance(Set(s, Bal(user), NumberText(Fin(x))), u) == Balance(s, u)
  {
  }

  /** `list.slice(0, n)` as `ltrim(key, 0, n - 1)` leaves it: the first `n`
      entries, or all of them when there are fewer. */
  function Take<T>(xs: seq<T>, n: nat): (r: seq<T>)
    ensures |r| == if |xs| <= n then |xs| else n
    ensures r == xs[..|r|]
  {
    if |xs| <= n then xs else xs[..n]
  }
}

=== FILE: strings.dfy ===
/** The string operations the handlers apply: lower-casing, trimming, the
    UTF-16 code units `charCodeAt` reads, and the decimal text of an integer. */
module Strings {

  /** `toLowerCase` on one character, for the ASCII letters. No character
      outside A-Z lower-cases to one of the letters of "long" or "short", so
      this is exact for the side check that uses it. */
  function LowerChar(c: char): char
  {
    if 'A' <= c <= 'Z' then (c as int + 32) as char else c
  }

  function Lower(s: string): (r: string)
    ensures |r| == |s|
    ensures forall i :: 0 <= i < |s| ==> r[i] == LowerChar(s[i])
  {
    if s == [] then [] else [LowerChar(s[0])] + Lower(s[1..])
  }

  /** The characters `String.prototype.trim` removes: ECMAScript WhiteSpace and
      LineTerminator. */
  predicate IsSpace(c: char)
  {
    || c == '\t' || c == '\n' || c == '\U{000B}' || c == '\U{000C}' || c == '\r'
    || c == ' ' || c == '\U{00A0}' || c == '\U{1680}'
    || ('\U{2000}' <= c <= '\U{200A}')
    || c == '\U{2028}' || c == '\U{2029}' || c == '\U{202F}' || c == '\U{205F}'
    || c == '\U{3000}' || c == '\U{FEFF}'
  }

  /** Drops the leading white space: what is dropped is all white space and
      what is kept is a suffix that does not start with white space. */
  function TrimStart(s: string): (r: string)
    ensures |r| <= |s| && r == s[|s| - |r|..]
    ensures forall i :: 0 <= i < |s| - |r| ==> IsSpace(s[i])
    ensures |r| > 0 ==> !IsSpace(r[0])
  {
    if |s| > 0 && IsSpace(s[0]) then TrimStart(s[1..]) else s
  }

  /** Drops the trailing white space: what is dropped is all white space and
      what is kept is a prefix that does not end with white space. */
  function TrimEnd(s: string): (r: string)
    ensures |r| <= |s| && r == s[..|r|]
    ensures forall i :: |r| <= i < |s| ==> IsSpace(s[i])
    ensures |r| > 0 ==> !IsSpace(r[|r| - 1])
  {
    if |s| > 0 && IsSpace(s[|s| - 1]) then TrimEnd(s[..|s| - 1]) else s
  }

  /** `r` is the piece of `s` starting at `i` once white space is dropped
      from both ends: everything before and after it is white space. */
  predicate PieceAt(s: string, r: string, i: int)
  {
    && 0 <= i && i + |r| <= |s| && r == s[i..i + |r|]
    && (forall k :: 0 <= k < i ==> IsSpace(s[k]))
    && (forall k :: i + |r| <= k < |s| ==> IsSpace(s[k]))
  }

  /** `s.trim()`: `s` with its leading and trailing white space removed, so
      empty exactly when `s` is all white space, and otherwise a piece of `s`
      that neither starts nor ends with white space. */
  function Trim(s: string): (r: string)
    ensures exists i :: PieceAt(s, r, i)
    ensures r == [] <==> forall i :: 0 <= i < |s| ==> IsSpace(s[i])
    ensures |r| > 0 ==> !IsSpace(r[0]) && !IsSpace(r[|r| - 1])
    ensures |r| <= |s|
  {
    TrimPiece(s);
    TrimIsPiece(s);
    TrimEnd(TrimStart(s))
  }

  lemma TrimPiece(s: string)
    ensures var a := TrimStart(s); var r := TrimEnd(a);
      && (r == [] <==> forall i :: 0 <= i < |s| ==> IsSpace(s[i]))
      && (|r| > 0 ==> !IsSpace(r[0]) && !IsSpace(r[|r| - 1]))
  {
    var a := TrimStart(s);
    var r := TrimEnd(a);
    assert |r| > 0 ==> r[0] == a[0];
    if r == [] {
      assert a == [];
    }
  }

  /** What trimming both ends keeps is one piece of the original text. */
  lemma TrimIsPiece(s: string)
    ensures PieceAt(s, TrimEnd(TrimStart(s)), |s| - |TrimStart(s)|)
  {
    var a := TrimStart(s);
    SuffixPrefixPiece(s, a, TrimEnd(a), |s| - |a|);
  }

  /** A prefix `r` of a suffix `a == s[i..]` is a piece of `s` at `i`, with
      white space around it when `a` drops only white space from `s` and `r`
      only white space from `a`. */
  lemma SuffixPrefixPiece(s: string, a: string, r: string, i: int)
    requires 0 <= i <= |s| && a == s[i..]
    requires |r| <= |a| && r == a[..|r|]
    requires forall k :: 0 <= k < i ==> IsSpace(s[k])
    requires forall k :: |r| <= k < |a| ==> IsSpace(a[k])
    ensures PieceAt(s, r, i)
  {
    assert r == s[i..i + |r|];
    forall k | i + |r| <= k < |s|
      ensures IsSpace(s[k])
    {
      assert s[k] == a[k - i];
    }
  }

  /** The UTF-16 code units of one character, as `charCodeAt` reads them: the
      code point itself below U+10000, a surrogate pair above. */
  function CodeUnits(c: char): (r: seq<int>)
    ensures 1 <= |r| <= 2
    ensures |r| == 1 <==> c as int < 0x10000
    ensures |r| == 1 ==> r[0] == c as int
    ensures |r| == 2 ==>
      && 0xD800 <= r[0] < 0xDC00 <= r[1] < 0xE000
      && (r[0] - 0xD800) * 0x400 + (r[1] - 0xDC00) + 0x10000 == c as int
    ensures forall i :: 0 <= i < |r| ==> 0 <= r[i] < 0x10000
  {
    var v := c as int;
    if v < 0x10000 then [v]
    else [0xD800 + (v - 0x10000) / 0x400, 0xDC00 + (v - 0x10000) % 0x400]
  }

  /** The code units of a string, the sequence `str.charCodeAt(i)` walks over. */
  function Utf16(s: string): (r: seq<int>)
    ensures |r| >= |s|
    ensures forall i :: 0 <= i < |r| ==> 0 <= r[i] < 0x10000
  {
    if s == [] then [] else CodeUnits(s[0]) + Utf16(s[1..])
  }

  lemma {:induction false} Utf16Concat(a: string, b: string)
    ensures Utf16(a + b) == Utf16(a) + Utf16(b)
  {
    if a == [] {
      assert a + b == b;
    } else {
      assert (a + b)[0] == a[0];
      assert (a + b)[1..] == a[1..] + b;
      Utf16Concat(a[1..], b);
      calc {
        Utf16(a + b);
        CodeUnits(a[0]) + Utf16(a[1..] + b);
        CodeUnits(a[0]) + (Utf16(a[1..]) + Utf16(b));
        (CodeUnits(a[0]) + Utf16(a[1..])) + Utf16(b);
        Utf16(a) + Utf16(b);
      }
    }
  }

  predicate IsDigit(c: char) { '0' <= c <= '9' }

  function DigitChar(d: int): (c: char)
    requires 0 <= d < 10
    ensures IsDigit(c) && c as int - '0' as int == d
  {
    ('0' as int + d) as char
  }

  /** The decimal digits of a natural number, without leading zeros. */
  function Digits(n: nat): (r: string)
    ensures |r| >= 1 && (n > 0 ==> r[0] != '0')
    ensures forall i :: 0 <= i < |r| ==> IsDigit(r[i])
  {
    if n < 10 then [DigitChar(n)] else Digits(n / 10) + [DigitChar(n % 10)]
  }

  /** The decimal text of an integer: an optional minus sign and its digits,
      without leading zeros. */
  function DecimalText(n: int): string
  {
    if n < 0 then "-" + Digits(-n) else Digits(n)
  }

  /** The value of a string of decimal digits. */
  function DigitsValue(s: string): int
    requires forall i :: 0 <= i < |s| ==> IsDigit(s[i])
  {
    if s == [] then 0 else DigitsValue(s[..|s| - 1]) * 10 + (s[|s| - 1] as int - '0' as int)
  }

  /** Reads an optionally signed run of decimal digits. */
  function ParseDecimal(s: string): int
  {
    if |s| > 0 && s[0] == '-' && forall i :: 1 <= i < |s| ==> IsDigit(s[i]) then -DigitsValue(s[1..])
    else if forall i :: 0 <= i < |s| ==> IsDigit(s[i]) then DigitsValue(s)
    else 0
  }

  lemma {:induction false} DigitsRoundTrip(n: nat)
    ensures DigitsValue(Digits(n)) == n
  {
    if n >= 10 {
      var r := Digits(n);
      assert r[..|r| - 1] == Digits(n / 10);
      DigitsRoundTrip(n / 10);
    }
  }

  /** The decimal text of an integer reads back as that integer, so the text
      determines the number. */
  lemma DecimalRoundTrip(n: int)
    ensures ParseDecimal(DecimalText(n)) == n
  {
    if n < 0 {
      var t := DecimalText(n);
      assert t[1..] == Digits(-n);
      DigitsRoundTrip(-n);
    } else {
      DigitsRoundTrip(n);
    }
  }
}

=== FILE: views.dfy ===
/** The two read-only views: the round clock with the recent outcomes
    (api/state.js) and a user's balance (api/balance.js). Neither writes to
    the store. */
module Views {
  import opened Js
  import opened Strings
  import opened Clock
  import opened KeyValue
  import opened Http

  /** The `round` object of the state answer. */
  datatype RoundView = RoundView(roundId: int, startAt: int, endAt: int, nextAt: int)

  /** One projected history entry, `{roundId: Number(x.roundId), pct: Number(x.pct)}`. */
  datatype Point = Point(roundId: Num, pct: Num)

  datatype StateView = StateView(serverNow: int, round: RoundView, history: seq<Point>)

  /** A history entry survives `.filter(Boolean)`: it parses, and to a truthy
      value. */
  predicate Kept(t: Text)
  {
    Truthy(TextJson(t))
  }

  /** The projection of a surviving entry. */
  function Project(t: Text): Point
    requires Kept(t)
  {
    var x := TextJson(t).value;
    Point(ToNumber(Field(x, "roundId")), ToNumber(Field(x, "pct")))
  }

  /** `hist.map(parse).filter(Boolean).map(project)`: entries that do not
      parse, or parse to a falsy value, are dropped; every other entry is
      projected, in order. */
  function History(entries: seq<Text>): (r: seq<Point>)
    ensures |r| <= |entries|
    ensures (forall i :: 0 <= i < |entries| ==> Kept(entries[i])) ==>
      |r| == |entries| && forall i :: 0 <= i < |r| ==> r[i] == Project(entries[i])
    ensures (forall i :: 0 <= i < |entries| ==> !Kept(entries[i])) ==> r == []
  {
    if entries == [] then []
    else if Kept(entries[0]) then [Project(entries[0])] + History(entries[1..])
    else History(entries[1..])
  }

  /** The view of a concatenation is the concatenation of the views, so an
      entry's fate does not depend on its neighbours. */
  lemma {:induction false} HistoryConcat(a: seq<Text>, b: seq<Text>)
    ensures History(a + b) == History(a) + History(b)
  {
    if a == [] {
      assert a + b == b;
    } else {
      assert (a + b)[0] == a[0];
      assert (a + b)[1..] == a[1..] + b;
      HistoryConcat(a[1..], b);
    }
  }

  /** api/state.js: the current round's boundaries, derived from
      `roundIdByNow(now)` alone, and the view of the newest 12 entries of
      "round:history". */
  function State(s: Store, verb: Verb, now: int): (r: Reply<StateView>)
    ensures verb != GetVerb <==> r == Fail(MethodNotAllowed)
    ensures r.Ok? ==>
      var v := r.value;
      && v.serverNow == now
      && v.round.roundId == RoundIdByNow(now)
      && v.round.startAt <= now < v.round.nextAt
      && v.round.endAt == v.round.startAt + BET_MS
      && v.round.nextAt == v.round.startAt + ROUND_MS
      && v.round.startAt % ROUND_MS == 0
      && v.history == History(Take(s.roundHistory, 12))
      && |v.history| <= 12
  {
    if verb != GetVerb then Fail(MethodNotAllowed)
    else
      var rid := RoundIdByNow(now);
      var startAt := RoundStartAt(rid);
      CurrentRound(now, rid);
      Ok(StateView(now, RoundView(rid, startAt, startAt + BET_MS, RoundEndAt(rid)), History(Take(s.roundHistory, 12))))
  }

  /** The state view's round agrees with lib/game.js's `getRoundTimes`, whose
      `endAt` is the close of betting. */
  lemma StateMatchesRoundTimes(s: Store, now: int)
    ensures var t := GetRoundTimes(now);
      var v := State(s, GetVerb, now).value;
      v.round.startAt == t.startAt && v.round.endAt == t.endAt && v.round.nextAt == t.nextAt
  {
  }

  /** What `normalizeUser` makes of the query's address. */
  datatype Normalized = NoUser | UserKey(key: string) | ParseThrows

  /** `normalizeUser(address)`: the trimmed text, null when empty, "guest" as
      itself, and otherwise the canonical form of the parsed address (which
      may throw). */
  function NormalizeUser(cfg: Config, address: Option<string>): (r: Normalized)
    ensures r == NoUser <==> address.None? || forall i :: 0 <= i < |address.value| ==> IsSpace(address.value[i])
    ensures address.Some? && Trim(address.value) == "guest" ==> r == UserKey("guest")
    ensures r.UserKey? && r.key != "guest" ==> address.Some? && cfg.canonical(Trim(address.value)) == Some(r.key)
    ensures r == ParseThrows ==> address.Some? && cfg.canonical(Trim(address.value)).None?
    ensures address.Some? && Trim(address.value) != "" && Trim(address.value) != "guest" ==>
      && (r == ParseThrows <==> cfg.canonical(Trim(address.value)).None?)
      && (r.UserKey? ==> cfg.canonical(Trim(address.value)) == Some(r.key))
  {
    var a := Trim(if address.Some? then address.value else "");
    if a == [] then NoUser
    else if a == "guest" then UserKey("guest")
    else match cfg.canonical(a)
      case None => ParseThrows
      case Some(key) => UserKey(key)
  }

  /** api/balance.js: the balance in TON of the normalised user, 0 when the
      stored value is missing or not a finite number. A bad address is
      `bad_address` only when it normalises to nothing; one that fails to parse
      throws into the handler's 500 "balance_error". */
  function BalanceTon(cfg: Config, s: Store, verb: Verb, address: Option<string>): (r: Reply<real>)
    ensures verb != GetVerb <==> r == Fail(MethodNotAllowed)
    ensures verb == GetVerb ==> (r == Fail(BadAddress) <==> NormalizeUser(cfg, address) == NoUser)
    ensures verb == GetVerb ==> (r == Fail(ServerError("balance_error")) <==> NormalizeUser(cfg, address) == ParseThrows)
    ensures r.Ok? ==>
      NormalizeUser(cfg, address).UserKey? && r.value * 1000000000.0 == Balance(s, NormalizeUser(cfg, address).key)
  {
    if verb != GetVerb then Fail(MethodNotAllowed)
    else match NormalizeUser(cfg, address)
      case NoUser => Fail(BadAddress)
      case ParseThrows => Fail(ServerError("balance_error"))
      case UserKey(user) => Ok(Balance(s, user) / 1000000000.0)
  }

  /** An address that trims to something other than "guest" and that
      `Address.parse` rejects is answered with the handler's 500, never with
      some other user's balance. */
  lemma RejectedAddressFails(cfg: Config, s: Store, address: string)
    requires Trim(address) != "" && Trim(address) != "guest"
    requires cfg.canonical(Trim(address)).None?
    ensures BalanceTon(cfg, s, GetVerb, Some(address)) == Fail(ServerError("balance_error"))
  {
  }

  /** A balance that was never written, or holds no finite number, reads as 0. */
  lemma DefaultZero(cfg: Config, s: Store, address: Option<string>)
    requires NormalizeUser(cfg, address).UserKey?
    requires !Has(s, Bal(NormalizeUser(cfg, address).key)) || !s.kv[Bal(NormalizeUser(cfg, address).key)].number.Fin?
    ensures BalanceTon(cfg, s, GetVerb, address) == Ok(0.0)
  {
    var user := NormalizeUser(cfg, address).key;
    assert Balance(s, user) == 0.0;
  }

  /** A request with another method is refused before the store is read: the
      answer is the same whatever the store holds. */
  lemma MethodBeforeRead(cfg: Config, s: Store, other: Store, verb: Verb, address: Option<string>)
    requires verb != GetVerb
    ensures BalanceTon(cfg, s, verb, address) == BalanceTon(cfg, other, verb, address)
  {
  }
}
